=== FILE: README.md ===
# Result ingestion of the luis test explorer, in Dafny

luis shows jest results in a story-book-like explorer. Its bridge
(`luis/src/bridge.ts`) turns the test runner's aggregated results and the
snapshot store into the tests of each `describe` group. This project models
that ingestion engine as pure functions over strings (`seq<char>`) and lines
(`seq<string>`), and proves what it does:

- `clean` removes ANSI colour codes from a failure message (`clean.dfy`).
- The equality extractor splits the diff in a message into the `expected`
  and `actual` texts (`message.dfy`, `equality.dfy`).
- The snapshot-diff reconstructor rebuilds the received text from a
  truncated snapshot diff (`reconstruct.dfy`). `diffscript.dfy` is an
  independent account of what a printed diff means, used as its partner.
- The error attached to a failing test (`failure.dfy`).
- Snapshot keys (`keys.dfy`) and the snapshot list with its names and its
  markup normalisation (`snapshots.dfy`, `markup.dfy`).
- `addTests`, the matcher that fills a group from the results, and the
  tail of `describe` with its name sort (`matcher.dfy`, `ordering.dfy`).

`jsstring.dfy` holds the JavaScript string operations the code relies on:
- `indexOf`;
- `split` and `join`;
- `slice` and `findIndex`;
- `trim`;
- `replace` with a string pattern, which changes the first occurrence only;
- string comparison with `<`.

JavaScript semantics are written out where they matter:
- `findIndex` yields -1 when nothing matches;
- `slice` with negative bounds counts from the end;
- an out-of-range `originalLines[i]` is `undefined`, which `join` prints as
  the empty string;
- `test.duration || 1` replaces both a missing and a zero duration.

The model follows the code as written, including where its behaviour is
surprising:
- `clean` is not idempotent. `"[[1m2m"` cleans to `"[2m"`, which cleans to
  `""` (`Clean.NotIdempotent`).
- The first numbered snapshot is called `Snapshot `, not `Snapshot 1`,
  because `\b1$` is stripped after numbering (`Snapshots.TwoNumberedKeys`).
- `addTests` resets the counters but never clears the test list. The
  early return for a group that already has tests is commented out
  (bridge.ts:38-41). A second call appends the same tests again
  (`Matcher.AddedTwice`). The second call has a lookup of its own, since
  the first call's pushes can change what `findTest` returns.
- Take the lines `<div>`, `A`, `B`, `C`, `</div>` with `A` replaced by `X`,
  printed without a space after the markers. The reconstruction is the
  whole edited text only when the diff prints the trailing context lines.
  From the hunk alone the code emits only the lines `<div>` and `X`
  (`DiffScript.DivExample`).
- An added line keeps the space jest prints after `+`, so the
  reconstructed actual text has that line indented by one space
  (`DiffScript.DivExampleJest`, see Findings).
- The snapshot sides are normalised with the code's `([^>]+)`. A
  self-closing element with nothing between a name of two or more letters
  and `/>` loses the last letter of the name in its closing tag
  (`Markup.AsWrittenCutsLastLetter`, see Findings). A one-letter name with
  nothing before `/>` is not matched and stays self-closing
  (`Markup.OneLetterKept`). Any attribute text, even a single space as in
  `<br />`, is expanded correctly (`Markup.ExpandAsWrittenWithAttrs`). The
  corrected expansion with `([^>]*)` is `Markup.ExpandSelfClosing`.

## Model

| member | source | states |
|---|---|---|
| Clean.CleanMessage | luis/src/bridge.ts:26-30 | the cleaned message has no ESC character, is never longer than the message, uses only its characters, and leaves a message without ESC and `[` unchanged |
| Clean.StripCodes | luis/src/bridge.ts:28 | removing `[<digits>m` remnants never lengthens the text, keeps only its characters, and leaves text without `[` unchanged |
| Clean.StripLeadingCode | luis/src/bridge.ts:28 | a complete `[<digits>m` remnant at the front is dropped as a whole and the scan resumes behind it |
| Clean.RemoveEscFromCode | luis/src/bridge.ts:27 | a colour code `ESC[<digits>m` loses exactly its ESC to the first replacement |
| Clean.CleanColouredText | luis/src/bridge.ts:26-30 | a jest-coloured fragment `ESC[n m text ESC[k m` cleans to exactly its text |
| Clean.NotIdempotent | luis/src/bridge.ts:26-30 | `clean` is not idempotent: `"[[1m2m"` cleans to `"[2m"`, and cleaning again gives `""` |
| Message.GateIgnoresLeadingMarker | luis/src/bridge.ts:94-97 | the gate needs a marker after position 0: a message that starts with `+ Received` and has no equality marker does not open the equality branch |
| Message.Window | luis/src/bridge.ts:101-106 | the window holds only lines of the message and no stack-trace line |
| Message.WindowAfterHeader | luis/src/bridge.ts:101-106 | the window starts two lines after the first header and ends just before the first stack-trace line after it |
| Message.WindowWithoutHeader | luis/src/bridge.ts:102-105 | without a header, `findIndex` yields -1 and the window starts at line 1 |
| Message.WindowWithoutStackLine | luis/src/bridge.ts:106 | without a stack-trace line, `slice(0, -1)` drops the last line |
| Equality.Extract | luis/src/bridge.ts:90-118 | the equality sides are present exactly when one of the two markers is first found after position 0 |
| Equality.ClassifyLines | luis/src/bridge.ts:108-117 | the loop accumulates exactly the expected and actual texts the classification defines, line by line |
| Equality.MarkedPair | luis/src/bridge.ts:109-112 | a `-` line goes re-indented to expected only and a `+` line to actual only |
| Equality.UnmarkedWindowShared | luis/src/bridge.ts:113-116 | a window without marked lines is copied, one line each, to both sides |
| Equality.OtherSideIgnored | luis/src/bridge.ts:108-117 | deleting the lines marked for the other side does not change a side |
| Equality.ExtractLineCounts | luis/src/bridge.ts:101-117 | expected has one newline per window line not marked `+`, and actual one per window line not marked `-` |
| Reconstruct.CopyRange | luis/src/bridge.ts:149-151 | the header loop copies original lines `from .. to-1`, with an empty text beyond the end, and nothing when `to <= from` |
| Reconstruct.HunkStart | luis/src/bridge.ts:140 | a line is a hunk header exactly when it starts with `@@ -` followed by a digit |
| Reconstruct.DiffMarker | luis/src/bridge.ts:156-159 | the marker found is `+` or `-`; a line starting with `+` or `-` yields that marker, and a line starting with any other character that is not white space yields none, and so does an empty line |
| Reconstruct.DiffMarkerSkipsSpace | luis/src/bridge.ts:156 | `^\s*` skips leading white space: a line starting with white space has the marker of the line without that character, which together with `DiffMarker`'s clauses fixes the marker of every line |
| Reconstruct.ContextLineUnmarked | luis/src/bridge.ts:156-159 | a context line as jest prints it, two spaces and an original line that does not start with white space, `+` or `-`, has no marker |
| Reconstruct.StepMovesOrEmits | luis/src/bridge.ts:139-169 | one line never takes back an emitted line; outside a hunk header it either advances the cursor by one and emits at most one line, or emits one line and leaves the cursor |
| Reconstruct.ReplayAppends | luis/src/bridge.ts:139-170 | the replay only appends to the lines emitted before it |
| Reconstruct.ReconstructActual | luis/src/bridge.ts:128-172 | without lines below the `+ Received` header the reconstruction is empty |
| Reconstruct.Tighten | luis/src/bridge.ts:156-165 | the corrected marker removal: a line without a marker is unchanged, and no line gets longer |
| Reconstruct.MarkerRemoval | luis/src/bridge.ts:156-160 | `line.replace(d, '')` deletes exactly the marker found after the leading white space |
| Reconstruct.AddedLineText | luis/src/bridge.ts:156-165 | an added line `+text` contributes exactly `text` |
| Reconstruct.HeaderValue | luis/src/bridge.ts:140-147 | a header `@@ -N...` is read back as N |
| Reconstruct.ReplayStopsAtStackLine | luis/src/bridge.ts:142-144 | nothing after a stack-trace line is replayed |
| Reconstruct.ReplayContext | luis/src/bridge.ts:166-169 | context lines emit the original lines at the cursor, one each, and advance it |
| Reconstruct.ContextWindowIsPrefix | luis/src/bridge.ts:139-172 | a window of k context lines reconstructs exactly the first k original lines |
| Reconstruct.ReplayCounts | luis/src/bridge.ts:156-169 | without headers, every line emits one line or advances the cursor: the cursor moves by the lines not marked `+`, the output grows by the lines not marked `-` |
| Reconstruct.HeaderMovesBack | luis/src/bridge.ts:146-153 | a header `@@ -N` with `N-1` at or before the cursor copies nothing and moves the cursor back to `N-1` |
| Reconstruct.HeaderCopiesGap | luis/src/bridge.ts:146-153 | a header copies the original lines from the cursor up to line `N-1` and sets the cursor there |
| DiffScript.ReplayRender | luis/src/bridge.ts:139-170 | replaying a printed edit script emits exactly the edited lines, each added line led by whatever the printer puts after `+`, and leaves the cursor where the script stops |
| DiffScript.ReconstructsReceived | luis/src/bridge.ts:139-172 | for a diff without a space after its markers, the reconstruction is the whole received text exactly when the diff walks to the end of the original: original lines past the last position it reaches are never appended |
| DiffScript.RenderedLines | luis/src/bridge.ts:131 | no printed diff line contains a newline or reads as a stack-trace line |
| DiffScript.MessageWindow | luis/src/bridge.ts:128-131 | the window read out of a failure message below `+ Received` is the printed diff |
| DiffScript.ReconstructFromMessage | luis/src/bridge.ts:128-172 | end to end, the reconstructed actual text of such a message is the edited original joined by newlines, each added line keeping what the printer puts after `+` |
| DiffScript.DivExample | luis/src/bridge.ts:139-172 | for `<div>`, `A`, `B`, `C`, `</div>` with `A` replaced by `X`, printed without a space after the markers, the hunk alone emits only the lines `<div>`, `X`, and the diff with the trailing context lines emits all five edited lines |
| DiffScript.IndentedMarkerMisread | luis/src/bridge.ts:156-162 | an unchanged original line `-1,` printed indented is read as a removal and lost from the reconstruction |
| DiffScript.StackLikeLineCutsWindow | luis/src/bridge.ts:128-172 | an unchanged original line `  at home` between `<div>` and `</div>` is printed `    at home`, the window stops there, and the reconstruction emits only `<div>` where the received text has all three lines |
| DiffScript.DivExampleJest | luis/src/bridge.ts:156-165 | printed as jest prints it (`- A`, `+ X`), the same change emits the lines `<div>`, ` X`, `B`, `C`, `</div>`: the added line keeps the space after `+` |
| DiffScript.TightenRender | luis/src/bridge.ts:156-165 | dropping the space after each marker turns jest's print of a script into the compact print of the same script |
| DiffScript.DivExampleIntended | luis/src/bridge.ts:139-172 | with the marker and its space removed together, the jest-printed `<div>` change emits exactly the edited lines `<div>`, `X`, `B`, `C`, `</div>` |
| DiffScript.IntendedFromMessage | luis/src/bridge.ts:128-172 | with the marker and its space removed together, the reconstruction of a jest-printed failure message is exactly the edited original joined by newlines |
| Keys.MatchingKeys | luis/src/bridge.ts:125 | every matching key is a key of the suite that contains the full name, and every such key is among them |
| Keys.MatchingKeysInOrder | luis/src/bridge.ts:125 | `filter` keeps key order: the k-th matching key is the entry at the k-th matching position, and those positions strictly increase |
| Keys.FirstMatchingKey | luis/src/bridge.ts:125-127 | the snapshot the reconstruction starts from is the first key, in key order, that contains the full name |
| Keys.EmptyNameMatchesAll | luis/src/bridge.ts:183 | an empty full name claims every key of its file |
| Failure.BuildError | luis/src/bridge.ts:86-179 | the error keeps the raw first message; without a snapshot match the sides are present exactly when the equality gate fires and are the extracted ones; with a snapshot match they are the trimmed first matching snapshot and its reconstruction |
| Failure.SnapshotErrorSides | luis/src/bridge.ts:86-173 | for any raw failure message, coloured or not, whose cleaned text is a snapshot failure printing an edit of the stored snapshot, expected is the snapshot and actual the edited text, each added line keeping what the printer puts after `+` |
| Snapshots.SnapshotsFor | luis/src/bridge.ts:183-217 | one snapshot per key containing the full name, in key order, with `originalName` the key, `matching` set, and the name and both sides its key resolves to |
| Snapshots.Expected | luis/src/bridge.ts:189-193 | the expected side is empty exactly when the stored snapshot is blank |
| Snapshots.Current | luis/src/bridge.ts:194-199 | the current side is absent exactly when the test has an error without an actual side |
| Snapshots.NamesEach | luis/src/bridge.ts:186-206 | for every key of `Names`: a numbered key is named after `Snapshot <counter plus the numbered keys before it>`, any other key after itself with the first occurrence of the full name removed, both with the two final replacements applied |
| Snapshots.IsNumberedKey | luis/src/bridge.ts:201 | a key is numbered exactly when the full name, white space and a digit occur at some position, and a numbered key contains the full name |
| Snapshots.StripTrailingOne | luis/src/bridge.ts:205 | the result is the name, or the name without a final `1` |
| Snapshots.StripLabelColon | luis/src/bridge.ts:206 | the result is a suffix of the name, and a name that does not start with `:` is unchanged |
| Snapshots.NumberedNameValue | luis/src/bridge.ts:201-205 | `Snapshot k` survives the final replacements except for k = 1, which becomes `Snapshot ` |
| Snapshots.RawNamesRank | luis/src/bridge.ts:186-202 | a numbered key takes the counter plus the number of numbered keys before it |
| Snapshots.RawNamesOther | luis/src/bridge.ts:203 | a key that is not numbered keeps the name computed for it |
| Snapshots.NamesRank | luis/src/bridge.ts:186-206 | the k-th numbered key is named `Snapshot k`, except that the first is `Snapshot ` |
| Snapshots.LabelName | luis/src/bridge.ts:206 | `: caption` is shown as `caption` when the caption does not start with white space and does not end in `1` |
| Snapshots.CustomLabel | luis/src/bridge.ts:203-206 | a custom-label key `<fullName>: <caption>` is named by its caption |
| Snapshots.TwoNumberedKeys | luis/src/bridge.ts:201-206 | for any full name, the keys `<name> 1` and `<name> 2` are named `Snapshot ` and `Snapshot 2` |
| Snapshots.NumberedKeyAt | luis/src/bridge.ts:201 | `<fullName> <digit>` counts as a numbered key |
| Snapshots.PassingSnapshotMatches | luis/src/bridge.ts:189-199 | a test without an error shows the stored snapshot, normalised, on both sides |
| Snapshots.ErrorWithoutActual | luis/src/bridge.ts:194-195 | a test whose error has no actual side shows no current text |
| Snapshots.PlainSnapshot | luis/src/bridge.ts:189-193 | a snapshot without markup and without `className=` is only trimmed |
| Markup.ExpandElement | luis/src/bridge.ts:192 | the corrected expansion turns `<name attrs/>` into `<name attrs></name>` for every tag name, with or without attributes |
| Markup.Expand | luis/src/bridge.ts:192 | the expansion never shortens the text |
| Markup.Normalize | luis/src/bridge.ts:191-192 | as written, text without `<` and without `className=` is left alone, and only empty text becomes empty |
| Markup.ExpandAsWrittenWithAttrs | luis/src/bridge.ts:192 | the expansion as written is right when the element has at least one attribute |
| Markup.AsWrittenCutsName | luis/src/bridge.ts:192 | as written, `<br/>` becomes `<br></b>`; the corrected expansion gives `<br></br>` |
| Markup.TagAtCut | luis/src/bridge.ts:192 | as written, the pattern matches `<name/>` with `\w+` taking all of the name but its last letter |
| Markup.AsWrittenCutsLastLetter | luis/src/bridge.ts:192 | as written, for every tag name of at least two letters, `<name/>` becomes `<name></nam>`, with the name's last letter missing from the closing tag |
| Markup.OneLetterKept | luis/src/bridge.ts:192 | as written, a self-closing element with a one-letter name and no attributes is not matched and stays as it is |
| Markup.ClassNameGone | luis/src/bridge.ts:191 | the global `className=` rewrite, on either side, leaves no `className=` in the text |
| Markup.ClassNameFirst | luis/src/bridge.ts:191 | text before the first `className=` that has no `c` is kept, that occurrence becomes `class=`, and the rewrite goes on behind it |
| Markup.NormalizeClassName | luis/src/bridge.ts:189-192 | a snapshot without elements and with one `className=` normalises to the same text with `class=` in its place |
| Markup.NoTagUnchanged | luis/src/bridge.ts:192 | text without `<` is left alone by either expansion |
| Ordering.SortBy | luis/src/bridge.ts:258-259 | the name sort yields a permutation of its input in which no name is below an earlier one |
| Ordering.InsertSorted | luis/src/bridge.ts:258-259 | inserting into a sorted sequence keeps it sorted |
| Ordering.InsertPermutation | luis/src/bridge.ts:258-259 | insertion adds exactly the one element |
| JsString.SplitJoin | luis/src/bridge.ts:101 | splitting a newline join of newline-free lines gives the lines back |
| JsString.JoinSplit | luis/src/bridge.ts:172 | joining the pieces of a split with the separator restores the text |
| Matcher.EffectiveDuration | luis/src/bridge.ts:62-63 | the duration is never 0, and a present nonzero duration is kept |
| Matcher.SuiteCandidates | luis/src/bridge.ts:58-60 | every test taken from a suite has the group's path and carries the suite's snapshot entries |
| Matcher.SuiteCandidatesComplete | luis/src/bridge.ts:58-60 | every test of a suite whose joined ancestor titles equal the group's path is taken |
| Matcher.SuiteCandidatesSound | luis/src/bridge.ts:58-60 | every test taken is a test of the suite with the group's path |
| Matcher.Candidates | luis/src/bridge.ts:54-60 | every test taken from any suite has the group's path |
| Matcher.OtherPathIgnored | luis/src/bridge.ts:59-60 | a test with a different path adds nothing |
| Matcher.FreshTest | luis/src/bridge.ts:61-218 | a built test has the result's title, the group, equal nonzero duration and end time, an error exactly when there are failure messages, whose sides are the ones `BuildError` takes from the first message (the trimmed first matching snapshot as expected under the snapshot gate), and one snapshot per matching key, in key order, with that key as `originalName`, `matching` set, the name `Names` gives it, the normalised stored text as expected and the current side the error calls for |
| Matcher.BuildTest | luis/src/bridge.ts:61-218 | building a test statement by statement gives the test described above |
| Matcher.AdmitCases | luis/src/bridge.ts:65-83 | a pending test known from before is replaced by the known test and counted failing exactly when it has an error; any other test is built and counted by its status; no test raises both counters |
| Matcher.AddOne | luis/src/bridge.ts:61-220 | the loop body for a matching test pushes the one test and raises the counters as described above |
| Matcher.AddSuite | luis/src/bridge.ts:58-221 | the inner loop pushes the matching tests of one suite in order |
| Matcher.AddTests | luis/src/bridge.ts:44-223 | the whole matcher: counters reset, then every matching test of every suite pushed in order |
| Matcher.Added | luis/src/bridge.ts:44-52 | without test results the counters are 0 and the tests are unchanged |
| Matcher.PushAllParts | luis/src/bridge.ts:58-83 | pushing tests appends them in order and raises the counters by the passing and failing counts |
| Matcher.Push | luis/src/bridge.ts:65-220 | pushing one test keeps the earlier tests in front and the group's name and path; the pushed test is a known test only for a pending result, and at most one counter goes up, by one |
| Matcher.CountsBounded | luis/src/bridge.ts:65-83 | the passing and failing counts together never exceed the number of tests pushed |
| Matcher.CountsByStatus | luis/src/bridge.ts:79-83 | when no earlier test is known, the counters are the numbers of passed and failed results |
| Matcher.AddedSummary | luis/src/bridge.ts:44-223 | with results, the tests are the earlier ones plus the matching ones, and the counters start from 0 and stay within the number appended |
| Matcher.AddedTwice | luis/src/bridge.ts:38-45 | a second call with the same results appends the matching tests again and resets the counters to those of its own pass; when the lookup answers as before, the tests appended are the same and the counters equal the first call's |
| Matcher.Describe | luis/src/bridge.ts:255-259 | after `addTests`, the group's tests and its parent's groups are sorted permutations by name, and the counters are those of `addTests` |

## Left out

- `buildBridge`, `createBridge`'s global shims, `mapBridgeToState` and
  `hideMenus` are registration and UI glue. Of `describe`, only `addTests`
  and the two sorts are modelled.
- `getGroup`, `initStory` and the restoring of the current group to
  `group.parent` change explorer state defined in `./index`. That file is
  not part of this model. `Describe` takes the parent's groups and the
  group's position as inputs.
- `state.liveRoot.findTest` is defined in `./index` too. It is a function
  parameter (`Lookup`).
- `AddTests` and `Describe` take the way a new test is built as a parameter
  (`Builder`). The construction the code performs is `FreshTest`, and
  `BuildTest` follows it statement by statement.
- The JS `Error` object is reduced to its message and its `expected` and
  `actual` fields.
- `new RegExp(test.fullName + '\\s+\\d+')` is read with `fullName` as
  literal text. Regular-expression metacharacters in a test name are not
  modelled.
- `Matcher.Describe`: states a sorted permutation. It does not state the
  order `Array.prototype.sort` gives equal names under the asymmetric
  comparator. Names compare by character code, and UTF-16 surrogate pairs
  are not modelled.
- `parseInt` of a hunk number is exact. Numbers beyond 2^53 are not
  modelled.
- `Object.getOwnPropertyNames` is taken as the given key order. The
  JavaScript rule that puts integer-like keys first is not modelled.
- Strings are sequences of Unicode code points, while JavaScript strings
  are sequences of UTF-16 code units. Outside the Basic Multilingual Plane
  this shifts `substring(2)` (bridge.ts:110, 112), lengths, `indexOf`
  positions and `slice` bounds. Surrogate pairs are not modelled.
- DiffScript.ReconstructsReceived, DiffScript.ReplayRender and
  DiffScript.ReconstructFromMessage require `AllPlain`: no original line
  starts with `+` or `-` after white space, and no original line starts
  with `  at`. The code misreads a line of the first kind, printed indented
  as unchanged, as a removal and drops it
  (`DiffScript.IndentedMarkerMisread`). A line of the second kind is
  printed `    at …`, which the code takes for the stack trace: the window
  ends there (bridge.ts:131, and the `break` at bridge.ts:142), so that
  line and every line after it are lost
  (`DiffScript.StackLikeLineCutsWindow`). The same exclusion is carried by
  DiffScript.RenderedLines, DiffScript.MessageWindow,
  DiffScript.TightenRender and DiffScript.IntendedFromMessage.
- Matcher.AddedTwice: the two calls take separate lookups. It states that
  equal tests come out only when both lookups answer alike, since
  `findTest` is defined outside this model.
- Markup.Expand: states only that the text never gets shorter. What it does
  to an element is stated by `Markup.ExpandElement`,
  `Markup.ExpandAsWrittenWithAttrs`, `Markup.AsWrittenCutsLastLetter`,
  `Markup.OneLetterKept` and `Markup.AsWrittenCutsName`.
- Reconstruct.ReconstructActual: states only the empty case. The full
  result for a printed diff is stated by `DiffScript.ReconstructFromMessage`.
- Matcher.Candidates: states only the path. Completeness and soundness are
  stated suite by suite by `Matcher.SuiteCandidatesComplete` and
  `Matcher.SuiteCandidatesSound`.
- Durations are integers. NaN and fractional durations are not modelled.
- `luis/src/client/config/app_config.ts` is UI preference storage and is
  not modelled.

## Findings

| source | as written | input that shows it | evidently intended | confidence | as-written member | corrected member |
|---|---|---|---|---|---|---|
| luis/src/bridge.ts:192 (and 198) | `/<(\w+)([^>]+)\/>/` needs at least one character between the tag name and `/>`; for an element with nothing between a name of two or more letters and `/>`, `\w+` gives up its last letter to `[^>]+`, and a one-letter name is not matched at all | the snapshot `<br/>` becomes `<br></b>` | every self-closing element becomes an open and close pair with the full name, `<br></br>` and `<b></b>`, which `([^>]*)` gives | high, derived by proof, not executed | Markup.AsWrittenCutsName | Markup.ExpandElement |
| luis/src/bridge.ts:156-165 | `line.replace(d, '')` removes only the marker, and jest prints a space after it | the jest diff `@@ -2 @@`, `- A`, `+ X`, `  B`, `  C`, `  </div>` of `<div>`, `A`, `B`, `C`, `</div>` emits the lines `<div>`, ` X`, `B`, `C`, `</div>` | the marker and its space are removed together, as the equality extractor's `substring(2)` does at lines 110-112, giving `<div>`, `X`, `B`, `C`, `</div>` | medium, derived by proof, not executed | DiffScript.DivExampleJest | DiffScript.IntendedFromMessage |

=== FILE: clean.dfy ===
/** The text normaliser `clean` (bridge.ts): it deletes every ESC character
    and then every `[<digits>m` colour-code remnant, in one left-to-right
    pass of each replacement.
 */
module Clean {
  import opened JsString

  /** The ESC character, `\u001b`, that opens an ANSI colour sequence. */
  const Esc: char := '\U{1B}'

  /** Length of the `[<digits>m` remnant at the very start of `s`, or 0 when
      `/\[\d+m/` does not match there. */
  function CodeLength(s: string): (n: nat)
    ensures n == 0 || 3 <= n <= |s|
    ensures n > 0 ==> s[0] == '[' && s[n - 1] == 'm'
    ensures n > 0 ==> forall k :: 1 <= k < n - 1 ==> IsDigit(s[k])
  {
    if |s| > 0 && s[0] == '[' then
      var d := DigitRun(s[1..]);
      if d > 0 && 1 + d < |s| && s[1 + d] == 'm' then d + 2 else 0
    else 0
  }

  /** `s.replace(/\[\d+m/g, '')`: after a match the scan resumes behind it,
      so a remnant that only appears once an inner one is gone survives. */
  function StripCodes(s: string): (r: string)
    decreases |s|
    ensures |r| <= |s|
    ensures forall c :: c in r ==> c in s
    ensures '[' !in s ==> r == s
  {
    if |s| == 0 then ""
    else
      var n := CodeLength(s);
      if n > 0 then StripCodes(s[n..]) else [s[0]] + StripCodes(s[1..])
  }

  /** `clean(message)`. */
  function CleanMessage(message: string): (r: string)
    ensures Esc !in r
    ensures |r| <= |message|
    ensures forall c :: c in r ==> c in message
    ensures Esc !in message && '[' !in message ==> r == message
  {
    var noEsc := RemoveChar(message, Esc);
    assert Esc !in message ==> noEsc == message by {
      if Esc !in message {
        assert Count(message, Esc) == 0;
        NoEscUnchanged(message);
      }
    }
    StripCodes(noEsc)
  }

  lemma {:induction false} NoEscUnchanged(s: string)
    requires Esc !in s
    ensures RemoveChar(s, Esc) == s
  {
    if |s| > 0 {
      assert s[0] in s;
      assert s[1..] == s[1..];
      NoEscUnchanged(s[1..]);
    }
  }

  predicate AllDigits(ds: string) {
    forall k :: 0 <= k < |ds| ==> IsDigit(ds[k])
  }

  /** A complete remnant at the front is dropped as a whole. */
  lemma StripLeadingCode(ds: string, rest: string)
    requires |ds| > 0 && AllDigits(ds)
    ensures StripCodes("[" + ds + "m" + rest) == StripCodes(rest)
  {
    var s := "[" + ds + "m" + rest;
    var t := s[1..];
    assert t == ds + "m" + rest;
    RunLengthIs(t, IsDigit, |ds|);
    assert CodeLength(s) == |ds| + 2;
    assert s[|ds| + 2..] == rest;
  }

  lemma {:induction false} RemoveCharAppend(a: string, b: string)
    ensures RemoveChar(a + b, Esc) == RemoveChar(a, Esc) + RemoveChar(b, Esc)
  {
    if |a| == 0 {
      assert a + b == b;
    } else {
      var t := a[1..];
      assert (a + b)[0] == a[0];
      assert (a + b)[1..] == t + b;
      RemoveCharAppend(t, b);
      if a[0] != Esc {
        var x, y := RemoveChar(t, Esc), RemoveChar(b, Esc);
        assert [a[0]] + (x + y) == ([a[0]] + x) + y;
      }
    }
  }

  /** A colour code `ESC[<digits>m` loses its ESC to the first replacement. */
  lemma RemoveEscFromCode(ds: string)
    requires AllDigits(ds)
    ensures RemoveChar([Esc] + "[" + ds + "m", Esc) == "[" + ds + "m"
  {
    var code := "[" + ds + "m";
    assert Esc !in code by {
      forall k | 0 <= k < |code| ensures code[k] != Esc {
        if 1 <= k <= |ds| {
          assert code[k] == ds[k - 1];
        }
      }
    }
    NoEscUnchanged(code);
    assert [Esc] + "[" + ds + "m" == [Esc] + code;
    assert ([Esc] + code)[1..] == code;
  }

  /** A jest-coloured fragment `ESC[<open>m text ESC[<close>m` cleans to its text. */
  lemma CleanColouredText(open: string, text: string, close: string)
    requires |open| > 0 && AllDigits(open) && |close| > 0 && AllDigits(close)
    requires Esc !in text && '[' !in text
    ensures CleanMessage([Esc] + "[" + open + "m" + text + [Esc] + "[" + close + "m")
         == text
  {
    var a := [Esc] + "[" + open + "m";
    var b := [Esc] + "[" + close + "m";
    var raw := [Esc] + "[" + open + "m" + text + [Esc] + "[" + close + "m";
    assert raw == a + (text + b);
    RemoveCharAppend(a, text + b);
    RemoveCharAppend(text, b);
    RemoveEscFromCode(open);
    RemoveEscFromCode(close);
    NoEscUnchanged(text);
    var noEsc := "[" + open + "m" + (text + ("[" + close + "m"));
    assert RemoveChar(raw, Esc) == noEsc;
    StripLeadingCode(open, text + ("[" + close + "m"));
    StripTextThenCode(text, close);
  }

  lemma {:induction false} StripTextThenCode(text: string, close: string)
    requires '[' !in text && |close| > 0 && AllDigits(close)
    ensures StripCodes(text + ("[" + close + "m")) == text
    decreases |text|
  {
    var s := text + ("[" + close + "m");
    if |text| == 0 {
      assert s == "[" + close + "m" + "";
      StripLeadingCode(close, "");
    } else {
      assert s[0] == text[0] && text[0] in text;
      assert CodeLength(s) == 0;
      assert s[1..] == text[1..] + ("[" + close + "m");
      StripTextThenCode(text[1..], close);
      assert text == [text[0]] + text[1..];
    }
  }

  /** `clean` is not idempotent: stripping an inner remnant can join the
      characters around it into a new one, which a second `clean` removes. */
  lemma NotIdempotent()
    ensures CleanMessage("[[1m2m") == "[2m"
    ensures CleanMessage(CleanMessage("[[1m2m")) == ""
  {
    NestedRemnant();
    LoneRemnant();
  }

  lemma NestedRemnant()
    ensures CleanMessage("[[1m2m") == "[2m"
  {
    var s := "[[1m2m";
    NoEscUnchanged(s);
    assert s[1..] == "[1m2m";
    RunLengthIs(s[1..], IsDigit, 0);
    assert CodeLength(s) == 0;
    InnerRemnant();
    assert StripCodes(s) == [s[0]] + StripCodes(s[1..]);
  }

  lemma InnerRemnant()
    ensures StripCodes("[1m2m") == "2m"
  {
    var t := "[1m2m";
    assert t[1..] == "1m2m";
    RunLengthIs(t[1..], IsDigit, 1);
    assert CodeLength(t) == 3;
    assert t[3..] == "2m";
    assert "2m"[0] != '[' && "2m"[1] != '[';
  }

  lemma LoneRemnant()
    ensures CleanMessage("[2m") == ""
  {
    NoEscUnchanged("[2m");
    StripLeadingCode("2", "");
    assert "[" + "2" + "m" + "" == "[2m";
  }
}

=== FILE: diffscript.dfy ===
/** An independent account of what a truncated snapshot diff means, used as
    the partner of the reconstruction loop: an edit script walks over the
    original lines, and jest prints it as `@@ -N` gap headers, `-` lines,
    `+` lines and indented unchanged lines.  Replaying the printed diff gives
    back the edited lines the script describes.
 */
module DiffScript {
  import opened JsString
  import opened Message
  import opened Reconstruct

  /** One step of an edit of the original lines. */
  datatype Edit =
    | Keep                 // the original line at the cursor is unchanged and shown
    | Remove               // the original line at the cursor is gone
    | Insert(text: string) // a new line
    | Elide(count: nat)    // `count` unchanged original lines the message leaves out

  /** The original lines `pos .. pos + k - 1` (empty beyond the end). */
  function Span(orig: seq<string>, pos: nat, k: nat): seq<string> {
    seq(k, j requires 0 <= j < k => OrigAt(orig, pos + j))
  }

  /** The received lines the script describes for the part of the original
      it walks over, starting at original line `pos`. */
  function Edited(orig: seq<string>, script: seq<Edit>, pos: nat): seq<string> {
    if |script| == 0 then []
    else match script[0]
      case Keep => [OrigAt(orig, pos)] + Edited(orig, script[1..], pos + 1)
      case Remove => Edited(orig, script[1..], pos + 1)
      case Insert(t) => [t] + Edited(orig, script[1..], pos)
      case Elide(k) => Span(orig, pos, k) + Edited(orig, script[1..], pos + k)
  }

  /** The original line the script stops at. */
  function Consumed(script: seq<Edit>, pos: nat): nat {
    if |script| == 0 then pos
    else match script[0]
      case Keep => Consumed(script[1..], pos + 1)
      case Remove => Consumed(script[1..], pos + 1)
      case Insert(_) => Consumed(script[1..], pos)
      case Elide(k) => Consumed(script[1..], pos + k)
  }

  /** The whole received text: the edited part followed by the original
      lines the script never reached, which the edit leaves unchanged. */
  function Received(orig: seq<string>, script: seq<Edit>): seq<string> {
    var stop := Consumed(script, 0);
    Edited(orig, script, 0) + (if stop < |orig| then orig[stop..] else [])
  }

  /** How jest prints the script, with `gap` between a `-` or `+` marker and
      its text: a gap as the 1-based number of the next original line in
      `@@ -N @@`, a removed line as `-` gap line, an added line as `+` gap
      text, an unchanged line indented by two spaces.  jest's diff printer
      puts one space after the marker (`gap == " "`); `gap == ""` gives the
      compact form `-A`, `+X`. */
  function Render(orig: seq<string>, script: seq<Edit>, pos: nat, gap: string): seq<string> {
    if |script| == 0 then []
    else match script[0]
      case Keep => ["  " + OrigAt(orig, pos)] + Render(orig, script[1..], pos + 1, gap)
      case Remove => ["-" + gap + OrigAt(orig, pos)] + Render(orig, script[1..], pos + 1, gap)
      case Insert(t) => ["+" + gap + t] + Render(orig, script[1..], pos, gap)
      case Elide(k) => [HeaderLine(pos + k + 1)] + Render(orig, script[1..], pos + k, gap)
  }

  /** The edit with `gap` put in front of every inserted line. */
  function Spaced(script: seq<Edit>, gap: string): (r: seq<Edit>)
    ensures |r| == |script|
  {
    if |script| == 0 then [] else [PadEdit(script[0], gap)] + Spaced(script[1..], gap)
  }

  function PadEdit(e: Edit, gap: string): Edit {
    if e.Insert? then Insert(gap + e.text) else e
  }

  /** jest's hunk header for a hunk starting at original line `n` (1-based). */
  function HeaderLine(n: nat): string {
    "@@ -" + Decimal(n) + " @@"
  }

  /** An original line that, shown indented, still reads as unchanged: it
      does not start with `+` or `-` after white space, and is not a
      stack-trace line. */
  predicate Plain(line: string) {
    DiffMarker("  " + line).None? && !IsStackLine("  " + line)
  }

  predicate AllPlain(orig: seq<string>) {
    forall i :: 0 <= i < |orig| ==> Plain(orig[i])
  }

  lemma PlainAt(orig: seq<string>, pos: int)
    requires AllPlain(orig)
    ensures Plain(OrigAt(orig, pos))
  {
    if !(0 <= pos < |orig|) {
      RunLengthIs("  ", IsSpace, 2);
    }
  }

  /** Why `AllPlain` is needed: an unchanged original line that starts with
      `-` is printed indented, and `^\s*(\+|\-)` still reads it as a
      removal, so the line `-1,` is lost from the reconstruction. */
  lemma IndentedMarkerMisread()
    ensures Replay(["a", "-1,", "b"], Cursor(0, []), ["  a", "  -1,", "  b"]).current == ["a", "b"]
  {
    var orig := ["a", "-1,", "b"];
    var l0, l1, l2 := "  a", "  -1,", "  b";
    RunLengthIs(l0, IsSpace, 2);
    RunLengthIs(l1, IsSpace, 2);
    RunLengthIs(l2, IsSpace, 2);
    assert !StartsWith(l0, "@@ -") && !StartsWith(l1, "@@ -") && !StartsWith(l2, "@@ -");
    assert !IsStackLine(l0) && !IsStackLine(l1) && !IsStackLine(l2);
    assert Step(orig, Cursor(0, []), l0) == Cursor(1, ["a"]);
    assert Step(orig, Cursor(1, ["a"]), l1) == Cursor(2, ["a"]);
    assert Step(orig, Cursor(2, ["a"]), l2) == Cursor(3, ["a", "b"]);
    var ls := [l0, l1, l2];
    assert ls[1..] == [l1, l2] && ls[1..][1..] == [l2] && ls[1..][1..][1..] == [];
  }

  /** Why `AllPlain` also excludes original lines starting with `  at`:
      shown indented such a line reads `    at …`, which the window takes for
      the stack trace.  The window stops there, and the reconstruction loses
      that line and every line after it. */
  lemma StackLikeLineCutsWindow()
    ensures !Plain("  at home")
    ensures Render(["<div>", "  at home", "</div>"], [Keep, Keep, Keep], 0, " ")
              == ["  <div>", "    at home", "  </div>"]
    ensures Window(["+ Received", "", "  <div>", "    at home", "  </div>"], IsReceivedHeader) == ["  <div>"]
    ensures Replay(["<div>", "  at home", "</div>"], Cursor(0, []), ["  <div>"]).current == ["<div>"]
    ensures Received(["<div>", "  at home", "</div>"], [Keep, Keep, Keep]) == ["<div>", "  at home", "</div>"]
  {
    assert IsStackLine("  " + "  at home");
    StackLikeRender();
    StackLikeWindow();
    StackLikeReplay();
    StackLikeReceived();
  }

  lemma StackLikeRender()
    ensures Render(["<div>", "  at home", "</div>"], [Keep, Keep, Keep], 0, " ")
              == ["  <div>", "    at home", "  </div>"]
  {
    var orig := ["<div>", "  at home", "</div>"];
    var ks: seq<Edit> := [Keep, Keep, Keep];
    assert ks[1..] == [Keep, Keep] && [Keep, Keep][1..] == [Keep] && [Keep][1..] == [];
    assert OrigAt(orig, 2) == "</div>" && "  " + "</div>" == "  </div>";
    assert Render(orig, [Keep], 2, " ") == ["  </div>"];
    assert OrigAt(orig, 1) == "  at home" && "  " + "  at home" == "    at home";
    assert Render(orig, [Keep, Keep], 1, " ") == ["    at home"] + Render(orig, [Keep], 2, " ");
    assert OrigAt(orig, 0) == "<div>" && "  " + "<div>" == "  <div>";
    assert Render(orig, ks, 0, " ") == ["  <div>"] + Render(orig, [Keep, Keep], 1, " ");
  }

  lemma StackLikeWindow()
    ensures Window(["+ Received", "", "  <div>", "    at home", "  </div>"], IsReceivedHeader) == ["  <div>"]
  {
    var header := "+ Received";
    assert header[..|ReceivedMarker|] == ReceivedMarker;
    assert IsReceivedHeader(header);
    var l0, l1 := "  <div>", "  </div>";
    assert l0[..|StackPrefix|][2] != StackPrefix[2];
    WindowAfterHeader(IsReceivedHeader, [], header, "", [l0], "    at home", [l1]);
    assert [] + [header, ""] + [l0] + ["    at home"] + [l1] == ["+ Received", "", "  <div>", "    at home", "  </div>"];
  }

  lemma StackLikeReplay()
    ensures Replay(["<div>", "  at home", "</div>"], Cursor(0, []), ["  <div>"]).current == ["<div>"]
  {
    var l0 := "  <div>";
    RunLengthIs(l0, IsSpace, 2);
    assert !StartsWith(l0, "@@ -") && !IsStackLine(l0);
    assert Step(["<div>", "  at home", "</div>"], Cursor(0, []), l0) == Cursor(1, ["<div>"]);
    assert [l0][1..] == [];
  }

  lemma StackLikeReceived()
    ensures Received(["<div>", "  at home", "</div>"], [Keep, Keep, Keep]) == ["<div>", "  at home", "</div>"]
  {
    var orig := ["<div>", "  at home", "</div>"];
    var ks: seq<Edit> := [Keep, Keep, Keep];
    assert ks[1..] == [Keep, Keep] && [Keep, Keep][1..] == [Keep] && [Keep][1..] == [];
    assert Consumed(ks, 0) == 3;
    assert Edited(orig, [Keep], 2) == ["</div>"];
    assert Edited(orig, [Keep, Keep], 1) == ["  at home", "</div>"];
    assert Edited(orig, ks, 0) == orig;
  }

  lemma MarkedLine(c: char, text: string)
    requires c == '+' || c == '-'
    ensures !IsStackLine([c] + text)
    ensures HunkStart([c] + text).None?
    ensures DiffMarker([c] + text) == Some(c)
  {
    RunLengthIs([c] + text, IsSpace, 0);
  }

  lemma ReplayCons(orig: seq<string>, c: Cursor, line: string, rest: seq<string>)
    requires !IsStackLine(line)
    ensures Replay(orig, c, [line] + rest) == Replay(orig, Step(orig, c, line), rest)
  {
    assert ([line] + rest)[0] == line;
    assert ([line] + rest)[1..] == rest;
  }

  lemma StepKeep(orig: seq<string>, pos: nat, current: seq<string>)
    requires AllPlain(orig)
    ensures !IsStackLine("  " + OrigAt(orig, pos))
    ensures Step(orig, Cursor(pos, current), "  " + OrigAt(orig, pos))
         == Cursor(pos + 1, current + [OrigAt(orig, pos)])
  {
    var line := "  " + OrigAt(orig, pos);
    PlainAt(orig, pos);
    assert line[0] == ' ';
    assert !StartsWith(line, "@@ -");
    assert HunkStart(line).None?;
  }

  lemma StepRemove(orig: seq<string>, pos: nat, current: seq<string>, gap: string)
    ensures !IsStackLine("-" + gap + OrigAt(orig, pos))
    ensures Step(orig, Cursor(pos, current), "-" + gap + OrigAt(orig, pos)) == Cursor(pos + 1, current)
  {
    MarkedLine('-', gap + OrigAt(orig, pos));
    assert "-" + gap + OrigAt(orig, pos) == ['-'] + (gap + OrigAt(orig, pos));
  }

  lemma StepInsert(orig: seq<string>, pos: nat, current: seq<string>, gap: string, t: string)
    ensures !IsStackLine("+" + gap + t)
    ensures Step(orig, Cursor(pos, current), "+" + gap + t) == Cursor(pos, current + [gap + t])
  {
    assert "+" + gap + t == ['+'] + (gap + t);
    MarkedLine('+', gap + t);
    AddedLineText(gap + t);
  }

  lemma StepElide(orig: seq<string>, pos: nat, current: seq<string>, k: nat, rest: seq<string>)
    ensures Replay(orig, Cursor(pos, current), [HeaderLine(pos + k + 1)] + rest)
         == Replay(orig, Cursor(pos + k, current + Span(orig, pos, k)), rest)
  {
    var line := HeaderLine(pos + k + 1);
    HeaderValue(pos + k + 1, " @@");
    assert line[0] == '@' && !IsStackLine(line);
    assert CopyRange(orig, pos, pos + k) == Span(orig, pos, k);
    assert Step(orig, Cursor(pos, current), line) == Cursor(pos + k, current + Span(orig, pos, k));
    ReplayCons(orig, Cursor(pos, current), line, rest);
  }

  /** What one edit does to the cursor when its printed line is replayed:
      an inserted line is emitted with the gap that follows its marker. */
  function Advance(orig: seq<string>, e: Edit, pos: nat, current: seq<string>, gap: string)
    : (nat, seq<string>)
  {
    match e
    case Keep => (pos + 1, current + [OrigAt(orig, pos)])
    case Remove => (pos + 1, current)
    case Insert(t) => (pos, current + [gap + t])
    case Elide(k) => (pos + k, current + Span(orig, pos, k))
  }

  /** Replaying the first printed line of a script performs its first edit:
      the replay, the edited lines and the stopping line all continue from
      the cursor that edit leaves. */
  predicate HeadStep(orig: seq<string>, script: seq<Edit>, pos: nat, current: seq<string>, gap: string)
    requires |script| > 0
  {
    var (p, cur) := Advance(orig, script[0], pos, current, gap);
    && Replay(orig, Cursor(pos, current), Render(orig, script, pos, gap))
       == Replay(orig, Cursor(p, cur), Render(orig, script[1..], p, gap))
    && current + Edited(orig, Spaced(script, gap), pos) == cur + Edited(orig, Spaced(script[1..], gap), p)
    && Consumed(script, pos) == Consumed(script[1..], p)
  }

  lemma ReplayHead(orig: seq<string>, script: seq<Edit>, pos: nat, current: seq<string>, gap: string)
    requires AllPlain(orig) && |script| > 0
    ensures HeadStep(orig, script, pos, current, gap)
  {
    match script[0]
    case Keep => HeadKeep(orig, script, pos, current, gap);
    case Remove => HeadRemove(orig, script, pos, current, gap);
    case Insert(t) => HeadInsert(orig, script, pos, current, gap, t);
    case Elide(k) => HeadElide(orig, script, pos, current, gap, k);
  }

  /** `Spaced` keeps every edit but an insertion as it is. */
  lemma SpacedHead(script: seq<Edit>, gap: string)
    requires |script| > 0 && !script[0].Insert?
    ensures Spaced(script, gap)[0] == script[0]
    ensures Spaced(script, gap)[1..] == Spaced(script[1..], gap)
  {
  }

  lemma HeadKeep(orig: seq<string>, script: seq<Edit>, pos: nat, current: seq<string>, gap: string)
    requires AllPlain(orig) && |script| > 0 && script[0] == Keep
    ensures HeadStep(orig, script, pos, current, gap)
  {
    var l := OrigAt(orig, pos);
    var rest := script[1..];
    StepKeep(orig, pos, current);
    assert Render(orig, script, pos, gap) == ["  " + l] + Render(orig, rest, pos + 1, gap);
    ReplayCons(orig, Cursor(pos, current), "  " + l, Render(orig, rest, pos + 1, gap));
    SpacedHead(script, gap);
    var e := Edited(orig, Spaced(rest, gap), pos + 1);
    assert Edited(orig, Spaced(script, gap), pos) == [l] + e;
    assert current + ([l] + e) == (current + [l]) + e;
  }

  lemma HeadRemove(orig: seq<string>, script: seq<Edit>, pos: nat, current: seq<string>, gap: string)
    requires |script| > 0 && script[0] == Remove
    ensures HeadStep(orig, script, pos, current, gap)
  {
    var rest := script[1..];
    var line := "-" + gap + OrigAt(orig, pos);
    StepRemove(orig, pos, current, gap);
    assert Render(orig, script, pos, gap) == [line] + Render(orig, rest, pos + 1, gap);
    ReplayCons(orig, Cursor(pos, current), line, Render(orig, rest, pos + 1, gap));
    SpacedHead(script, gap);
    assert Edited(orig, Spaced(script, gap), pos) == Edited(orig, Spaced(rest, gap), pos + 1);
  }

  lemma HeadInsert(orig: seq<string>, script: seq<Edit>, pos: nat, current: seq<string>, gap: string,
                   t: string)
    requires |script| > 0 && script[0] == Insert(t)
    ensures HeadStep(orig, script, pos, current, gap)
  {
    var rest := script[1..];
    var line := "+" + gap + t;
    StepInsert(orig, pos, current, gap, t);
    assert Render(orig, script, pos, gap) == [line] + Render(orig, rest, pos, gap);
    ReplayCons(orig, Cursor(pos, current), line, Render(orig, rest, pos, gap));
    var sp := Spaced(script, gap);
    assert sp[0] == PadEdit(script[0], gap) == Insert(gap + t) && sp[1..] == Spaced(rest, gap);
    var e := Edited(orig, Spaced(rest, gap), pos);
    assert Edited(orig, sp, pos) == [gap + t] + e;
    assert current + ([gap + t] + e) == (current + [gap + t]) + e;
  }

  lemma HeadElide(orig: seq<string>, script: seq<Edit>, pos: nat, current: seq<string>, gap: string,
                  k: nat)
    requires |script| > 0 && script[0] == Elide(k)
    ensures HeadStep(orig, script, pos, current, gap)
  {
    var rest := script[1..];
    var sp := Span(orig, pos, k);
    assert Advance(orig, script[0], pos, current, gap) == (pos + k, current + sp);
    assert Consumed(script, pos) == Consumed(rest, pos + k);
    assert Render(orig, script, pos, gap) == [HeaderLine(pos + k + 1)] + Render(orig, rest, pos + k, gap);
    StepElide(orig, pos, current, k, Render(orig, rest, pos + k, gap));
    SpacedHead(script, gap);
    var e := Edited(orig, Spaced(rest, gap), pos + k);
    assert Edited(orig, Spaced(script, gap), pos) == sp + e;
    assert current + (sp + e) == (current + sp) + e;
  }

  /** Replaying the printed script from the cursor at `pos` emits exactly
      the edited lines, each inserted line led by the gap after its marker,
      and leaves the cursor where the script stops. */
  lemma {:induction false} ReplayRender(orig: seq<string>, script: seq<Edit>, pos: nat, current: seq<string>,
                                        gap: string)
    requires AllPlain(orig)
    ensures Replay(orig, Cursor(pos, current), Render(orig, script, pos, gap))
         == Cursor(Consumed(script, pos), current + Edited(orig, Spaced(script, gap), pos))
    decreases |script|
  {
    if |script| == 0 {
      assert current + [] == current;
    } else {
      var (p, cur) := Advance(orig, script[0], pos, current, gap);
      ReplayHead(orig, script, pos, current, gap);
      ReplayRender(orig, script[1..], p, cur, gap);
    }
  }

  /** Without a gap every edit is kept as it is. */
  lemma {:induction false} SpacedEmpty(script: seq<Edit>)
    ensures Spaced(script, "") == script
    decreases |script|
  {
    if |script| > 0 {
      SpacedEmpty(script[1..]);
      if script[0].Insert? {
        assert "" + script[0].text == script[0].text;
      }
      assert script == [script[0]] + script[1..];
    }
  }

  /** In the compact form, the reconstruction yields the whole received
      text exactly when the diff walks to the end of the original: original
      lines after the last position the diff reaches are never appended. */
  lemma ReconstructsReceived(orig: seq<string>, script: seq<Edit>)
    requires AllPlain(orig)
    ensures Replay(orig, Cursor(0, []), Render(orig, script, 0, "")).current == Received(orig, script)
        <==> Consumed(script, 0) >= |orig|
  {
    ReplayRender(orig, script, 0, [], "");
    SpacedEmpty(script);
    assert [] + Edited(orig, script, 0) == Edited(orig, script, 0);
    if Consumed(script, 0) >= |orig| {
      assert Received(orig, script) == Edited(orig, script, 0) + [];
    }
  }

  predicate NoNewline(lines: seq<string>) {
    forall k :: 0 <= k < |lines| ==> '\n' !in lines[k]
  }

  predicate InsertsOneLine(script: seq<Edit>) {
    forall k :: 0 <= k < |script| ==> script[k].Insert? ==> '\n' !in script[k].text
  }

  /** Every printed line is a single line, and none reads as a stack-trace
      line. */
  lemma {:induction false} RenderedLines(orig: seq<string>, script: seq<Edit>, pos: nat, gap: string)
    requires AllPlain(orig) && NoNewline(orig) && InsertsOneLine(script) && '\n' !in gap
    ensures NoNewline(Render(orig, script, pos, gap))
    ensures forall k :: 0 <= k < |Render(orig, script, pos, gap)| ==> !IsStackLine(Render(orig, script, pos, gap)[k])
    decreases |script|
  {
    if |script| > 0 {
      var rest := script[1..];
      assert InsertsOneLine(rest) by {
        forall k | 0 <= k < |rest| ensures rest[k].Insert? ==> '\n' !in rest[k].text {
          assert rest[k] == script[k + 1];
        }
      }
      var l := OrigAt(orig, pos);
      assert '\n' !in l;
      var line: string, p: nat;
      match script[0] {
        case Keep =>
          line, p := "  " + l, pos + 1;
          PlainAt(orig, pos);
        case Remove =>
          line, p := "-" + gap + l, pos + 1;
          assert line == ['-'] + (gap + l);
          MarkedLine('-', gap + l);
        case Insert(t) =>
          line, p := "+" + gap + t, pos;
          assert line == ['+'] + (gap + t);
          MarkedLine('+', gap + t);
          assert script[0].text == t;
        case Elide(k) =>
          line, p := HeaderLine(pos + k + 1), pos + k;
          var ds := Decimal(pos + k + 1);
          assert line == "@@ -" + ds + " @@";
          assert '\n' !in ds by {
            forall j | 0 <= j < |ds| ensures ds[j] != '\n' {
              assert IsDigit(ds[j]);
            }
          }
          assert line[0] == '@';
      }
      assert Render(orig, script, pos, gap) == [line] + Render(orig, rest, p, gap);
      RenderedLines(orig, rest, p, gap);
    }
  }

  /** The failure message around a printed script: the lines before the
      `+ Received` header, the header, the line jest prints after it, the
      script, a stack-trace line and whatever follows. */
  function PrintedMessage(body: seq<string>, pre: seq<string>, skipped: string, stack: string,
                   post: seq<string>): string {
    Join(pre + [ReceivedMarker, skipped] + body + [stack] + post, "\n")
  }

  /** The conditions under which such a message carries the script as its
      window. */
  predicate WellPrinted(orig: seq<string>, script: seq<Edit>, gap: string, pre: seq<string>,
                        skipped: string, stack: string, post: seq<string>) {
    && AllPlain(orig) && NoNewline(orig) && InsertsOneLine(script) && '\n' !in gap
    && NoNewline(pre) && NoNewline(post) && '\n' !in skipped && '\n' !in stack
    && (forall k :: 0 <= k < |pre| ==> !IsReceivedHeader(pre[k]))
    && IsStackLine(stack)
  }

  /** End to end: for a failure message whose `+ Received` header is followed
      by one skipped line, the printed script and a stack trace, the
      reconstructed received text is the edited text joined by newlines,
      except that each inserted line keeps the gap printed after its `+`. */
  lemma ReconstructFromMessage(orig: seq<string>, script: seq<Edit>, gap: string, pre: seq<string>,
                               skipped: string, stack: string, post: seq<string>)
    requires |orig| > 0 && WellPrinted(orig, script, gap, pre, skipped, stack, post)
    ensures ReconstructActual(Join(orig, "\n"), PrintedMessage(Render(orig, script, 0, gap), pre, skipped, stack, post))
         == Join(Edited(orig, Spaced(script, gap), 0), "\n")
  {
    MessageWindow(orig, script, gap, pre, skipped, stack, post);
    SplitJoin(orig, '\n');
    ReplayRender(orig, script, 0, [], gap);
    assert [] + Edited(orig, Spaced(script, gap), 0) == Edited(orig, Spaced(script, gap), 0);
  }

  /** The window the reconstruction reads out of such a message is the
      printed script. */
  lemma MessageWindow(orig: seq<string>, script: seq<Edit>, gap: string, pre: seq<string>,
                      skipped: string, stack: string, post: seq<string>)
    requires WellPrinted(orig, script, gap, pre, skipped, stack, post)
    ensures Window(Split(PrintedMessage(Render(orig, script, 0, gap), pre, skipped, stack, post), '\n'),
                   IsReceivedHeader)
         == Render(orig, script, 0, gap)
  {
    var body := Render(orig, script, 0, gap);
    var lines := pre + [ReceivedMarker, skipped] + body + [stack] + post;
    RenderedLines(orig, script, 0, gap);
    MessageLines(pre, skipped, body, stack, post);
    SplitJoin(lines, '\n');
    StartsWithIndexOf(ReceivedMarker, ReceivedMarker);
    WindowAfterHeader(IsReceivedHeader, pre, ReceivedMarker, skipped, body, stack, post);
  }

  lemma MessageLines(pre: seq<string>, skipped: string, body: seq<string>, stack: string, post: seq<string>)
    requires NoNewline(pre) && NoNewline(body) && NoNewline(post) && '\n' !in skipped && '\n' !in stack
    ensures NoNewline(pre + [ReceivedMarker, skipped] + body + [stack] + post)
  {
    var lines := pre + [ReceivedMarker, skipped] + body + [stack] + post;
    forall k | 0 <= k < |lines| ensures '\n' !in lines[k] {
      if k < |pre| {
        assert lines[k] == pre[k];
      } else if k == |pre| {
        assert lines[k] == ReceivedMarker;
      } else if k == |pre| + 1 {
      } else if k < |pre| + 2 + |body| {
        assert lines[k] == body[k - |pre| - 2];
      } else if k == |pre| + 2 + |body| {
      } else {
        assert lines[k] == post[k - |pre| - 3 - |body|];
      }
    }
  }

  const DivOriginal: seq<string> := ["<div>", "A", "B", "C", "</div>"]
  /** Replace `A` by `X`, showing nothing after the change. */
  const DivShort: seq<Edit> := [Elide(1), Remove, Insert("X")]
  /** The same change followed by the three trailing context lines. */
  const DivFull: seq<Edit> := [Elide(1), Remove, Insert("X"), Keep, Keep, Keep]

  lemma DivOriginalPlain()
    ensures AllPlain(DivOriginal)
  {
    forall i | 0 <= i < |DivOriginal| ensures Plain(DivOriginal[i]) {
      var l := "  " + DivOriginal[i];
      RunLengthIs(l, IsSpace, 2);
      assert l[0] == ' ' && l[2] != ' ';
    }
  }

  lemma DivRendered(gap: string)
    ensures Render(DivOriginal, DivShort, 0, gap) == ["@@ -2 @@", "-" + gap + "A", "+" + gap + "X"]
    ensures Render(DivOriginal, DivFull, 0, gap)
         == ["@@ -2 @@", "-" + gap + "A", "+" + gap + "X", "  B", "  C", "  </div>"]
  {
    var o := DivOriginal;
    var minus, plus := "-" + gap + "A", "+" + gap + "X";
    assert HeaderLine(2) == "@@ -2 @@" by {
      DecimalTwo();
    }
    var tail := [Remove, Insert("X")];
    assert DivShort[1..] == tail;
    assert tail[1..] == [Insert("X")];
    var e: seq<Edit> := [];
    assert [Insert("X")][1..] == e && [Keep][1..] == e;
    assert Render(o, e, 2, gap) == [] && Render(o, e, 5, gap) == [];
    assert Render(o, [Insert("X")], 2, gap) == [plus] + [];
    assert OrigAt(o, 1) == "A";
    assert Render(o, tail, 1, gap) == [minus] + [plus];
    assert Render(o, DivShort, 0, gap) == ["@@ -2 @@"] + [minus, plus];
    var keeps := [Keep, Keep, Keep];
    DivTrailing(gap);
    var t2 := [Insert("X")] + keeps;
    assert t2[1..] == keeps;
    assert Render(o, t2, 2, gap) == [plus, "  B", "  C", "  </div>"];
    var t1 := [Remove] + t2;
    assert t1[1..] == t2;
    assert Render(o, t1, 1, gap) == [minus, plus, "  B", "  C", "  </div>"];
    assert DivFull[1..] == t1;
  }

  /** The three trailing context lines of the div example. */
  lemma DivTrailing(gap: string)
    ensures Render(DivOriginal, [Keep, Keep, Keep], 2, gap) == ["  B", "  C", "  </div>"]
  {
    var o := DivOriginal;
    var keeps := [Keep, Keep, Keep];
    var e: seq<Edit> := [];
    assert [Keep][1..] == e && Render(o, e, 5, gap) == [];
    assert OrigAt(o, 4) == "</div>" && "  " + "</div>" == "  </div>";
    assert Render(o, [Keep], 4, gap) == ["  </div>"] + [];
    assert keeps[1..][1..] == [Keep];
    assert OrigAt(o, 3) == "C" && "  " + "C" == "  C";
    assert Render(o, keeps[1..], 3, gap) == ["  C"] + ["  </div>"];
    assert OrigAt(o, 2) == "B" && "  " + "B" == "  B";
    assert Render(o, keeps, 2, gap) == ["  B"] + ["  C", "  </div>"];
  }

  /** The div edits with the gap put in front of the inserted line. */
  lemma DivSpaced(gap: string)
    ensures Spaced(DivShort, gap) == [Elide(1), Remove, Insert(gap + "X")]
    ensures Spaced(DivFull, gap) == [Elide(1), Remove, Insert(gap + "X"), Keep, Keep, Keep]
  {
    var x := Insert(gap + "X");
    var e: seq<Edit> := [];
    assert Spaced(e, gap) == [];
    assert [Keep][1..] == e && [Keep, Keep][1..] == [Keep] && [Keep, Keep, Keep][1..] == [Keep, Keep];
    assert Spaced([Keep], gap) == [Keep];
    assert Spaced([Keep, Keep], gap) == [Keep, Keep];
    assert Spaced([Keep, Keep, Keep], gap) == [Keep, Keep, Keep];
    assert [Insert("X")][1..] == e;
    assert Spaced([Insert("X")], gap) == [x];
    assert [Insert("X"), Keep, Keep, Keep][1..] == [Keep, Keep, Keep];
    assert Spaced([Insert("X"), Keep, Keep, Keep], gap) == [x, Keep, Keep, Keep];
    assert [Remove, Insert("X")][1..] == [Insert("X")];
    assert Spaced([Remove, Insert("X")], gap) == [Remove, x];
    assert [Remove, Insert("X"), Keep, Keep, Keep][1..] == [Insert("X"), Keep, Keep, Keep];
    assert Spaced([Remove, Insert("X"), Keep, Keep, Keep], gap) == [Remove, x, Keep, Keep, Keep];
    assert DivShort[1..] == [Remove, Insert("X")];
    assert DivFull[1..] == [Remove, Insert("X"), Keep, Keep, Keep];
  }

  lemma DivEdited(gap: string)
    ensures Edited(DivOriginal, Spaced(DivShort, gap), 0) == ["<div>", gap + "X"]
    ensures Edited(DivOriginal, Spaced(DivFull, gap), 0) == ["<div>", gap + "X", "B", "C", "</div>"]
  {
    DivSpaced(gap);
    var x := Insert(gap + "X");
    var e: seq<Edit> := [];
    assert Span(DivOriginal, 0, 1) == ["<div>"];
    var short := [Elide(1), Remove, x];
    assert short[1..] == [Remove, x] && [Remove, x][1..] == [x] && [x][1..] == e;
    assert Edited(DivOriginal, [x], 2) == [gap + "X"];
    assert Edited(DivOriginal, short, 0) == ["<div>", gap + "X"];
    var full := [Elide(1), Remove, x, Keep, Keep, Keep];
    assert full[1..] == [Remove, x, Keep, Keep, Keep];
    assert [Remove, x, Keep, Keep, Keep][1..] == [x, Keep, Keep, Keep];
    assert [x, Keep, Keep, Keep][1..] == [Keep, Keep, Keep];
    assert [Keep][1..] == e && [Keep, Keep][1..] == [Keep] && [Keep, Keep, Keep][1..] == [Keep, Keep];
    assert Edited(DivOriginal, [Keep], 4) == ["</div>"];
    assert Edited(DivOriginal, [Keep, Keep], 3) == ["C", "</div>"];
    assert Edited(DivOriginal, [Keep, Keep, Keep], 2) == ["B", "C", "</div>"];
    assert Edited(DivOriginal, [x, Keep, Keep, Keep], 2) == [gap + "X", "B", "C", "</div>"];
    assert Edited(DivOriginal, full, 0) == ["<div>", gap + "X", "B", "C", "</div>"];
  }

  /** Replaying either div diff, for any gap after the markers. */
  lemma DivReplay(gap: string)
    ensures Replay(DivOriginal, Cursor(0, []), Render(DivOriginal, DivShort, 0, gap)).current
         == ["<div>", gap + "X"]
    ensures Replay(DivOriginal, Cursor(0, []), Render(DivOriginal, DivFull, 0, gap)).current
         == ["<div>", gap + "X", "B", "C", "</div>"]
  {
    DivOriginalPlain();
    DivEdited(gap);
    ReplayRender(DivOriginal, DivShort, 0, [], gap);
    ReplayRender(DivOriginal, DivFull, 0, [], gap);
    var a: seq<string> := ["<div>", gap + "X"];
    var b: seq<string> := ["<div>", gap + "X", "B", "C", "</div>"];
    assert [] + a == a && [] + b == b;
  }

  /** `<div> A B C </div>` with `A` replaced by `X`, printed in the compact
      form: a diff that stops after `+X` loses `B`, `C` and `</div>`; one
      that shows the trailing context rebuilds all the received lines. */
  lemma DivExample()
    ensures Replay(DivOriginal, Cursor(0, []), ["@@ -2 @@", "-A", "+X"]).current == ["<div>", "X"]
    ensures Replay(DivOriginal, Cursor(0, []), ["@@ -2 @@", "-A", "+X", "  B", "  C", "  </div>"]).current
         == ["<div>", "X", "B", "C", "</div>"]
  {
    DivRendered("");
    assert "-" + "" + "A" == "-A" && "+" + "" + "X" == "+X";
    DivReplay("");
    assert "" + "X" == "X";
  }

  /** The same change as jest prints it, with a space after each marker:
      the code keeps that space in the added line. */
  lemma DivExampleJest()
    ensures Replay(DivOriginal, Cursor(0, []), ["@@ -2 @@", "- A", "+ X", "  B", "  C", "  </div>"]).current
         == ["<div>", " X", "B", "C", "</div>"]
  {
    DivRendered(" ");
    assert "-" + " " + "A" == "- A" && "+" + " " + "X" == "+ X";
    DivReplay(" ");
    assert " " + "X" == " X";
  }

  /** With the marker and its space removed together, the jest-printed diff
      rebuilds the received lines. */
  lemma DivExampleIntended()
    ensures Replay(DivOriginal, Cursor(0, []),
                   TightenAll(["@@ -2 @@", "- A", "+ X", "  B", "  C", "  </div>"])).current
         == ["<div>", "X", "B", "C", "</div>"]
  {
    DivTightened();
    DivExample();
  }

  lemma DivTightened()
    ensures TightenAll(["@@ -2 @@", "- A", "+ X", "  B", "  C", "  </div>"])
         == ["@@ -2 @@", "-A", "+X", "  B", "  C", "  </div>"]
  {
    DivRendered(" ");
    DivRendered("");
    assert "-" + " " + "A" == "- A" && "+" + " " + "X" == "+ X";
    assert "-" + "" + "A" == "-A" && "+" + "" + "X" == "+X";
    DivOriginalPlain();
    TightenRender(DivOriginal, DivFull, 0);
  }

  // ---------------------------------------------------------------------------
  // The reconstruction as evidently intended

  /** The printed line of one edit, and the original line after it. */
  function Line(orig: seq<string>, e: Edit, pos: nat, gap: string): string {
    match e
    case Keep => "  " + OrigAt(orig, pos)
    case Remove => "-" + gap + OrigAt(orig, pos)
    case Insert(t) => "+" + gap + t
    case Elide(k) => HeaderLine(pos + k + 1)
  }

  function Next(e: Edit, pos: nat): nat {
    match e
    case Keep => pos + 1
    case Remove => pos + 1
    case Insert(_) => pos
    case Elide(k) => pos + k
  }

  lemma RenderCons(orig: seq<string>, script: seq<Edit>, pos: nat, gap: string)
    requires |script| > 0
    ensures Render(orig, script, pos, gap)
         == [Line(orig, script[0], pos, gap)] + Render(orig, script[1..], Next(script[0], pos), gap)
  {
  }

  /** Dropping the space after the marker turns a line of jest's print
      format into the compact one. */
  lemma TightenLine(orig: seq<string>, e: Edit, pos: nat)
    requires AllPlain(orig)
    ensures Tighten(Line(orig, e, pos, " ")) == Line(orig, e, pos, "")
  {
    var l := OrigAt(orig, pos);
    match e {
      case Keep =>
        PlainAt(orig, pos);
      case Remove =>
        TightenMarked('-', l);
        assert "-" + " " + l == ['-'] + " " + l && "-" + "" + l == ['-'] + l;
      case Insert(t) =>
        TightenMarked('+', t);
        assert "+" + " " + t == ['+'] + " " + t && "+" + "" + t == ['+'] + t;
      case Elide(k) =>
        RunLengthIs(HeaderLine(pos + k + 1), IsSpace, 0);
    }
  }

  /** Dropping the space after each marker turns jest's print format into
      the compact one. */
  lemma {:induction false} TightenRender(orig: seq<string>, script: seq<Edit>, pos: nat)
    requires AllPlain(orig)
    ensures TightenAll(Render(orig, script, pos, " ")) == Render(orig, script, pos, "")
    decreases |script|
  {
    if |script| > 0 {
      var p := Next(script[0], pos);
      RenderCons(orig, script, pos, " ");
      RenderCons(orig, script, pos, "");
      TightenLine(orig, script[0], pos);
      TightenRender(orig, script[1..], p);
      TightenCons(Line(orig, script[0], pos, " "), Render(orig, script[1..], p, " "));
    }
  }

  lemma TightenMarked(c: char, text: string)
    requires c == '+' || c == '-'
    ensures Tighten([c] + " " + text) == [c] + text
  {
    var line := [c] + " " + text;
    MarkedLine(c, " " + text);
    assert [c] + (" " + text) == line;
    RunLengthIs(line, IsSpace, 0);
    assert line[..1] + line[2..] == [c] + text;
  }

  lemma TightenCons(line: string, rest: seq<string>)
    ensures TightenAll([line] + rest) == [Tighten(line)] + TightenAll(rest)
  {
    assert ([line] + rest)[0] == line;
    assert ([line] + rest)[1..] == rest;
  }

  /** End to end, as intended: for a failure message printed in jest's
      format, the reconstruction that removes each marker with its space
      yields exactly the edited text. */
  lemma IntendedFromMessage(orig: seq<string>, script: seq<Edit>, pre: seq<string>,
                            skipped: string, stack: string, post: seq<string>)
    requires |orig| > 0 && WellPrinted(orig, script, " ", pre, skipped, stack, post)
    ensures ReconstructIntended(Join(orig, "\n"), PrintedMessage(Render(orig, script, 0, " "), pre, skipped, stack, post))
         == Join(Edited(orig, script, 0), "\n")
  {
    MessageWindow(orig, script, " ", pre, skipped, stack, post);
    SplitJoin(orig, '\n');
    TightenRender(orig, script, 0);
    ReplayRender(orig, script, 0, [], "");
    SpacedEmpty(script);
    assert [] + Edited(orig, script, 0) == Edited(orig, script, 0);
  }
}

=== FILE: equality.dfy ===
/** The equality-failure extractor of `addTests` (bridge.ts): every window
    line is sorted by its first character into the expected text, the actual
    text, or both.
 */
module Equality {
  import opened JsString
  import opened Message

  /** The expected/actual pair attached to a failing test. */
  datatype Sides = Sides(expected: string, actual: string)

  /** `line.substring(from)` for a non-negative `from`. */
  function Substring(line: string, from: nat): string {
    if from < |line| then line[from..] else ""
  }

  /** A marked line re-indented for display: `'  ' + line.substring(2) + '\n'`. */
  function Reindent(line: string): string {
    "  " + Substring(line, 2) + "\n"
  }

  predicate MarkedWith(line: string, marker: char) {
    |line| > 0 && line[0] == marker
  }

  /** What one window line contributes to the side marked by `own`: a line
      marked for that side is re-indented, a line marked for the `other`
      side contributes nothing, any other line is copied with a newline. */
  function Contribution(line: string, own: char, other: char): string {
    if MarkedWith(line, own) then Reindent(line)
    else if MarkedWith(line, other) then ""
    else line + "\n"
  }

  /** The text one side accumulates over a window. */
  function Side(lines: seq<string>, own: char, other: char): string {
    if |lines| == 0 then "" else Contribution(lines[0], own, other) + Side(lines[1..], own, other)
  }

  function ExpectedText(lines: seq<string>): string { Side(lines, '-', '+') }
  function ActualText(lines: seq<string>): string { Side(lines, '+', '-') }

  lemma {:induction false} SideAppend(lines: seq<string>, line: string, own: char, other: char)
    ensures Side(lines + [line], own, other) == Side(lines, own, other) + Contribution(line, own, other)
  {
    if |lines| == 0 {
      assert lines + [line] == [line];
    } else {
      assert (lines + [line])[1..] == lines[1..] + [line];
      SideAppend(lines[1..], line, own, other);
    }
  }

  /** The `for (let line of lines)` loop: appends each line's contribution to
      `expected` and `actual`, both starting from `''`. */
  method ClassifyLines(lines: seq<string>) returns (expected: string, actual: string)
    ensures expected == ExpectedText(lines)
    ensures actual == ActualText(lines)
  {
    expected, actual := "", "";
    var i := 0;
    while i < |lines|
      invariant i <= |lines|
      invariant expected == ExpectedText(lines[..i])
      invariant actual == ActualText(lines[..i])
    {
      var line := lines[i];
      SideAppend(lines[..i], line, '-', '+');
      SideAppend(lines[..i], line, '+', '-');
      assert lines[..i + 1] == lines[..i] + [line];
      if |line| > 0 && line[0] == '-' {
        expected := expected + ("  " + Substring(line, 2) + "\n");
      } else if |line| > 0 && line[0] == '+' {
        actual := actual + ("  " + Substring(line, 2) + "\n");
      } else {
        expected := expected + (line + "\n");
        actual := actual + (line + "\n");
      }
      i := i + 1;
    }
    assert lines[..i] == lines;
  }

  /** The equality branch: `null`/`null` (here `None`) unless the gate fires,
      otherwise both sides of the window below the `+ Received` or
      `+ expected - actual` header. */
  function Extract(message: string): (r: Option<Sides>)
    ensures r.Some? <==> IsEqualityFailure(message)
  {
    if IsEqualityFailure(message) then
      var window := Window(Split(message, '\n'), IsDiffHeader);
      Some(Sides(ExpectedText(window), ActualText(window)))
    else None
  }

  // ---------------------------------------------------------------------------
  // Properties of the classification

  /** Number of lines that are not marked with `c`. */
  function CountNotMarked(lines: seq<string>, c: char): nat {
    if |lines| == 0 then 0
    else (if MarkedWith(lines[0], c) then 0 else 1) + CountNotMarked(lines[1..], c)
  }

  /** Each line not marked for the other side ends in exactly one newline of
      its own, so a side holds one newline per such line. */
  lemma {:induction false} SideNewlines(lines: seq<string>, own: char, other: char)
    requires own != other && own != '\n' && other != '\n'
    requires forall k :: 0 <= k < |lines| ==> '\n' !in lines[k]
    ensures Count(Side(lines, own, other), '\n') == CountNotMarked(lines, other)
  {
    if |lines| > 0 {
      var l := lines[0];
      SideNewlines(lines[1..], own, other);
      CountAppend(Contribution(l, own, other), Side(lines[1..], own, other), '\n');
      if MarkedWith(l, own) {
        var mid := Substring(l, 2);
        assert '\n' !in mid by {
          if 2 < |l| {
            forall k | 0 <= k < |mid| ensures mid[k] != '\n' {
              assert mid[k] == l[k + 2];
            }
          }
        }
        CountAppend("  " + mid, "\n", '\n');
        CountAppend("  ", mid, '\n');
        assert Count(mid, '\n') == 0;
      } else if !MarkedWith(l, other) {
        CountAppend(l, "\n", '\n');
        assert Count(l, '\n') == 0;
      }
    }
  }

  /** The expected text has one line per window line not starting with `+`,
      the actual text one per window line not starting with `-`. */
  lemma ExtractLineCounts(message: string)
    requires IsEqualityFailure(message)
    ensures var window := Window(Split(message, '\n'), IsDiffHeader);
            && Count(Extract(message).value.expected, '\n') == CountNotMarked(window, '+')
            && Count(Extract(message).value.actual, '\n') == CountNotMarked(window, '-')
  {
    var lines := Split(message, '\n');
    var window := Window(lines, IsDiffHeader);
    forall k | 0 <= k < |window| ensures '\n' !in window[k] {
      assert window[k] in lines;
    }
    SideNewlines(window, '-', '+');
    SideNewlines(window, '+', '-');
  }

  /** Lines without the `marker` at their head. */
  function DropMarked(lines: seq<string>, marker: char): (r: seq<string>)
    ensures forall k :: 0 <= k < |r| ==> !MarkedWith(r[k], marker)
  {
    if |lines| == 0 then []
    else (if MarkedWith(lines[0], marker) then [] else [lines[0]]) + DropMarked(lines[1..], marker)
  }

  /** A line marked for the other side adds nothing to this side: removing
      all `-` lines leaves the actual text unchanged, and removing all `+`
      lines leaves the expected text unchanged. */
  lemma {:induction false} OtherSideIgnored(lines: seq<string>, own: char, other: char)
    requires own != other
    ensures Side(DropMarked(lines, other), own, other) == Side(lines, own, other)
  {
    if |lines| > 0 {
      OtherSideIgnored(lines[1..], own, other);
      var rest := DropMarked(lines[1..], other);
      if !MarkedWith(lines[0], other) {
        assert DropMarked(lines, other) == [lines[0]] + rest;
        assert ([lines[0]] + rest)[1..] == rest;
      } else {
        assert DropMarked(lines, other) == rest;
      }
    }
  }

  /** Joins lines, each followed by a newline. */
  function Lines(lines: seq<string>): string {
    if |lines| == 0 then "" else lines[0] + "\n" + Lines(lines[1..])
  }

  /** A window without `-` and `+` lines is pure shared context: both sides
      equal the window itself, line by line. */
  lemma {:induction false} UnmarkedWindowShared(lines: seq<string>)
    requires forall k :: 0 <= k < |lines| ==> !MarkedWith(lines[k], '-') && !MarkedWith(lines[k], '+')
    ensures ExpectedText(lines) == Lines(lines)
    ensures ActualText(lines) == Lines(lines)
  {
    if |lines| > 0 {
      UnmarkedWindowShared(lines[1..]);
    }
  }

  /** The two marked forms of one line: `-` text goes to expected only, `+`
      text to actual only, both re-indented by two spaces in place of the
      marker and the character after it. */
  lemma MarkedPair(a: string, b: string)
    ensures ExpectedText(["- " + a, "+ " + b]) == "  " + a + "\n"
    ensures ActualText(["- " + a, "+ " + b]) == "  " + b + "\n"
  {
    var la := "- " + a;
    var lb := "+ " + b;
    assert la[0] == '-' && lb[0] == '+';
    assert Substring(la, 2) == a by {
      if |a| > 0 { assert la[2..] == a; }
    }
    assert Substring(lb, 2) == b by {
      if |b| > 0 { assert lb[2..] == b; }
    }
    assert [la, lb][1..] == [lb];
    assert [lb][1..] == [];
    assert ExpectedText([lb]) == "" + ExpectedText([]);
    assert ActualText([la, lb]) == "" + ActualText([lb]);
    assert ActualText([lb]) == Reindent(lb) + ActualText([]);
    assert "  " + Substring(la, 2) + "\n" + "" == "  " + a + "\n";
  }
}

=== FILE: failure.dfy ===
/** The error `addTests` (bridge.ts) attaches to a test with failure
    messages: the raw first message, plus the expected/actual pair taken
    from the equality diff or, for a snapshot failure, from the stored
    snapshot and the reconstructed received text.
 */
module Failure {
  import opened JsString
  import opened Clean
  import opened Message
  import opened Equality
  import opened Reconstruct
  import opened Keys
  import opened DiffScript

  /** `error.expected` and `error.actual` are `null` (here `None`) unless one
      of the two matchers filled them in. */
  datatype TestError = TestError(message: string, expected: Option<string>, actual: Option<string>)

  /** The snapshot matcher fires: the cleaned message carries a snapshot
      marker and some key of the suite contains the test's full name. */
  predicate SnapshotApplies(message: string, fullName: string, entries: seq<Entry>) {
    IsSnapshotFailure(message) && |MatchingKeys(entries, fullName)| > 0
  }

  /** The error for a test whose first failure message is `raw`.  The
      snapshot matcher runs after the equality matcher and overwrites both
      sides when it fires. */
  function BuildError(raw: string, fullName: string, entries: seq<Entry>): (r: TestError)
    ensures r.message == raw
    ensures var m := CleanMessage(raw);
            !SnapshotApplies(m, fullName, entries) ==>
              (r.expected.Some? <==> IsEqualityFailure(m)) && (r.actual.Some? <==> IsEqualityFailure(m))
    ensures var m := CleanMessage(raw);
            !SnapshotApplies(m, fullName, entries) && IsEqualityFailure(m) ==>
              r.expected == Some(Extract(m).value.expected) && r.actual == Some(Extract(m).value.actual)
    ensures var m := CleanMessage(raw);
            SnapshotApplies(m, fullName, entries) ==>
              var original := Trim(MatchingKeys(entries, fullName)[0].value);
              r.expected == Some(original) && r.actual == Some(ReconstructActual(original, m))
  {
    var m := CleanMessage(raw);
    var keys := MatchingKeys(entries, fullName);
    if IsSnapshotFailure(m) && |keys| > 0 then
      var original := Trim(keys[0].value);
      TestError(raw, Some(original), Some(ReconstructActual(original, m)))
    else
      match Extract(m)
      case Some(sides) => TestError(raw, Some(sides.expected), Some(sides.actual))
      case None => TestError(raw, None, None)
  }

  // ---------------------------------------------------------------------------
  // Properties

  /** End to end for a snapshot failure: when the stored snapshot, trimmed,
      is the original text and the message, once its colour codes are
      cleaned, prints an edit script of it below `+ Received`, the error's
      expected side is the original and its actual side the edited text,
      each inserted line led by the gap printed after its `+`.  The message
      itself may carry any colour codes `clean` removes. */
  lemma SnapshotErrorSides(orig: seq<string>, script: seq<Edit>, gap: string, pre: seq<string>,
                           skipped: string, stack: string, post: seq<string>,
                           raw: string, fullName: string, entries: seq<Entry>)
    requires |orig| > 0 && WellPrinted(orig, script, gap, pre, skipped, stack, post)
    requires CleanMessage(raw) == PrintedMessage(Render(orig, script, 0, gap), pre, skipped, stack, post)
    requires IsSnapshotFailure(CleanMessage(raw))
    requires |MatchingKeys(entries, fullName)| > 0
    requires Trim(MatchingKeys(entries, fullName)[0].value) == Join(orig, "\n")
    ensures BuildError(raw, fullName, entries).expected == Some(Join(orig, "\n"))
    ensures BuildError(raw, fullName, entries).actual == Some(Join(Edited(orig, Spaced(script, gap), 0), "\n"))
  {
    ReconstructFromMessage(orig, script, gap, pre, skipped, stack, post);
  }
}

=== FILE: jsstring.dfy ===
/** The small part of JavaScript's string and array library that the bridge
    relies on, written out over `seq<char>` and `seq<string>`: `indexOf`,
    `replace` with a string pattern, `split`, `join`, `trim`, `slice`,
    `parseInt` on a digit run, number-to-string, and string comparison with `<`.
 */
module JsString {

  datatype Option<T> = None | Some(value: T)

  // ---------------------------------------------------------------------------
  // Character classes

  /** JavaScript's `\s` class; `String.prototype.trim` removes exactly this set. */
  predicate IsSpace(c: char) {
    || c == ' ' || c == '\t' || c == '\n' || c == '\r' || c == '\U{B}' || c == '\U{C}'
    || c == '\U{A0}' || c == '\U{1680}' || ('\U{2000}' <= c <= '\U{200A}')
    || c == '\U{2028}' || c == '\U{2029}' || c == '\U{202F}' || c == '\U{205F}'
    || c == '\U{3000}' || c == '\U{FEFF}'
  }

  /** JavaScript's `\d` class. */
  predicate IsDigit(c: char) {
    '0' <= c <= '9'
  }

  /** JavaScript's `\w` class, which also decides where `\b` holds. */
  predicate IsWordChar(c: char) {
    ('a' <= c <= 'z') || ('A' <= c <= 'Z') || IsDigit(c) || c == '_'
  }

  /** Number of occurrences of `c` in `s`. */
  function Count(s: string, c: char): (n: nat)
    ensures n <= |s|
    ensures n == 0 <==> c !in s
  {
    if |s| == 0 then 0 else (if s[0] == c then 1 else 0) + Count(s[1..], c)
  }

  lemma {:induction false} CountAppend(a: string, b: string, c: char)
    ensures Count(a + b, c) == Count(a, c) + Count(b, c)
  {
    if |a| == 0 {
      assert a + b == b;
    } else {
      assert (a + b)[1..] == a[1..] + b;
      CountAppend(a[1..], b, c);
    }
  }

  /** Length of the longest prefix of `s` whose characters all satisfy `p`. */
  function RunLength(s: string, p: char -> bool): (n: nat)
    ensures n <= |s|
    ensures forall k :: 0 <= k < n ==> p(s[k])
    ensures n < |s| ==> !p(s[n])
  {
    if |s| == 0 || !p(s[0]) then 0 else 1 + RunLength(s[1..], p)
  }

  /** The run length is pinned down by where `p` first fails. */
  lemma {:induction false} RunLengthIs(s: string, p: char -> bool, n: nat)
    requires n <= |s|
    requires forall k :: 0 <= k < n ==> p(s[k])
    requires n < |s| ==> !p(s[n])
    ensures RunLength(s, p) == n
  {
    if n > 0 {
      RunLengthIs(s[1..], p, n - 1);
    }
  }

  function DigitRun(s: string): nat { RunLength(s, IsDigit) }
  function SpaceRun(s: string): nat { RunLength(s, IsSpace) }
  function WordRun(s: string): nat { RunLength(s, IsWordChar) }

  // ---------------------------------------------------------------------------
  // Searching

  predicate StartsWith(s: string, p: string) {
    |p| <= |s| && s[..|p|] == p
  }

  predicate OccursAt(s: string, p: string, i: nat) {
    i + |p| <= |s| && s[i..i + |p|] == p
  }

  /** `s.indexOf(p, from)`: the first position at or after `from` where `p`
      occurs, or -1. */
  function IndexOfFrom(s: string, p: string, from: nat): (r: int)
    decreases |s| - from
    ensures -1 <= r
    ensures r >= 0 ==> from <= r && OccursAt(s, p, r)
    ensures r >= 0 ==> forall k :: from <= k < r ==> !OccursAt(s, p, k)
    ensures r == -1 ==> forall k :: from <= k ==> !OccursAt(s, p, k)
  {
    if from + |p| > |s| then -1
    else if s[from..from + |p|] == p then from
    else IndexOfFrom(s, p, from + 1)
  }

  /** `s.indexOf(p)`. */
  function IndexOf(s: string, p: string): int {
    IndexOfFrom(s, p, 0)
  }

  /** `s.indexOf(p) >= 0`, which is also what an unanchored regular
      expression without metacharacters tests. */
  predicate Contains(s: string, p: string) {
    IndexOf(s, p) >= 0
  }

  lemma ContainsAt(s: string, p: string, i: nat)
    requires OccursAt(s, p, i)
    ensures Contains(s, p)
    ensures 0 <= IndexOf(s, p) <= i
  {
  }

  /** A piece of a text contains nothing the text does not. */
  lemma SliceContains(s: string, a: nat, b: nat, p: string)
    requires a <= b <= |s|
    ensures Contains(s[a..b], p) ==> Contains(s, p)
    ensures forall c :: c in s[a..b] ==> c in s
  {
    var t := s[a..b];
    if Contains(t, p) {
      var j := IndexOf(t, p);
      assert OccursAt(t, p, j);
      forall i | 0 <= i < |p| ensures s[a + j + i] == p[i] {
        assert t[j..j + |p|][i] == p[i] && t[j + i] == s[a + j + i];
      }
      assert s[a + j..a + j + |p|] == p;
      ContainsAt(s, p, a + j);
    }
    forall c | c in t ensures c in s {
      var j :| 0 <= j < |t| && t[j] == c;
      assert s[a + j] == c;
    }
  }

  lemma StartsWithIndexOf(s: string, p: string)
    requires StartsWith(s, p)
    ensures IndexOf(s, p) == 0
  {
    assert OccursAt(s, p, 0);
  }

  /** `s.replace(p, rep)` with a string pattern: only the first occurrence
      is replaced. */
  function ReplaceFirst(s: string, p: string, rep: string): string {
    var i := IndexOf(s, p);
    if i < 0 then s else s[..i] + rep + s[i + |p|..]
  }

  /** `s.replace(/p/g, rep)` for a pattern `p` without metacharacters:
      non-overlapping occurrences, left to right. */
  function ReplaceAll(s: string, p: string, rep: string): (r: string)
    requires |p| > 0
    ensures |rep| > 0 ==> (|r| == 0 <==> |s| == 0)
  {
    if |s| < |p| then s
    else if s[..|p|] == p then rep + ReplaceAll(s[|p|..], p, rep)
    else [s[0]] + ReplaceAll(s[1..], p, rep)
  }

  /** Without an occurrence of the pattern the global replacement changes
      nothing. */
  lemma {:induction false} ReplaceAllAbsent(s: string, p: string, rep: string)
    requires |p| > 0 && !Contains(s, p)
    ensures ReplaceAll(s, p, rep) == s
    decreases |s|
  {
    if |s| >= |p| {
      assert !OccursAt(s, p, 0);
      SliceContains(s, 1, |s|, p);
      assert s[1..|s|] == s[1..];
      ReplaceAllAbsent(s[1..], p, rep);
      assert s == [s[0]] + s[1..];
    }
  }

  /** The scan copies text it does not replace: when a text does not start
      with `q`, and `q` holds no first character of the replacement, the
      result does not start with `q` either. */
  lemma {:induction false} ReplaceAllKeepsMismatch(t: string, p: string, rep: string, q: string)
    requires |p| > 0 && |rep| > 0 && rep[0] !in q
    requires !(|q| <= |t| && t[..|q|] == q)
    ensures var r := ReplaceAll(t, p, rep); !(|q| <= |r| && r[..|q|] == q)
    decreases |q|
  {
    var r := ReplaceAll(t, p, rep);
    if |t| < |p| {
      assert r == t;
    } else if t[..|p|] == p {
      assert r == rep + ReplaceAll(t[|p|..], p, rep);
      assert r[0] == rep[0] && q[0] in q;
    } else {
      var r1 := ReplaceAll(t[1..], p, rep);
      assert r == [t[0]] + r1;
      if t[0] == q[0] {
        if |q| <= |t| {
          assert t[..|q|] == [t[0]] + t[1..][..|q| - 1];
        }
        ReplaceAllKeepsMismatch(t[1..], p, rep, q[1..]);
        if |q| <= |r| {
          assert r[..|q|] == [t[0]] + r1[..|q| - 1];
        }
      }
    }
  }

  /** The global replacement leaves no occurrence of the pattern, provided a
      replacement cannot start a new one: the pattern is at least as long as
      the replacement, the replacement's last character does not occur in
      the pattern's first |rep| characters, and its first character does not
      occur in the pattern after position 0. */
  lemma {:induction false} ReplaceAllLeavesNone(s: string, p: string, rep: string)
    requires |p| >= |rep| > 0
    requires rep[|rep| - 1] !in p[..|rep|]
    requires rep[0] !in p[1..]
    ensures !Contains(ReplaceAll(s, p, rep), p)
    decreases |s|
  {
    if |s| < |p| {
      assert ReplaceAll(s, p, rep) == s;
    } else if s[..|p|] == p {
      ReplaceAllLeavesNone(s[|p|..], p, rep);
      NoneAfterReplacement(rep, ReplaceAll(s[|p|..], p, rep), p);
    } else {
      ReplaceAllLeavesNone(s[1..], p, rep);
      NoneAfterCopy(s, p, rep);
    }
  }

  /** A replacement in front of text without the pattern does not start
      an occurrence. */
  lemma NoneAfterReplacement(rep: string, t: string, p: string)
    requires |p| >= |rep| > 0
    requires rep[|rep| - 1] !in p[..|rep|]
    requires !Contains(t, p)
    ensures !Contains(rep + t, p)
  {
    var r := rep + t;
    forall i: nat ensures !OccursAt(r, p, i) {
      if i + |p| > |r| {
      } else if i < |rep| {
        var j := |rep| - 1 - i;
        assert r[i + j] == rep[|rep| - 1] && p[..|rep|][j] == p[j];
        assert r[i..i + |p|][j] == r[i + j];
      } else {
        assert r[i..i + |p|] == t[i - |rep|..i - |rep| + |p|];
        assert !OccursAt(t, p, i - |rep|);
      }
    }
  }

  /** A character the scan copies, because the pattern does not start
      there, does not start an occurrence either. */
  lemma NoneAfterCopy(s: string, p: string, rep: string)
    requires |p| > 0 && |rep| > 0 && rep[0] !in p[1..]
    requires |s| >= |p| && s[..|p|] != p
    requires !Contains(ReplaceAll(s[1..], p, rep), p)
    ensures !Contains(ReplaceAll(s, p, rep), p)
  {
    var t := ReplaceAll(s[1..], p, rep);
    assert ReplaceAll(s, p, rep) == [s[0]] + t;
    CopiedHead(s, p, rep);
    NoneAfterHead(s[0], t, p);
  }

  /** The copied first character does not start an occurrence. */
  lemma CopiedHead(s: string, p: string, rep: string)
    requires |p| > 0 && |rep| > 0 && rep[0] !in p[1..]
    requires |s| >= |p| && s[..|p|] != p
    ensures !OccursAt([s[0]] + ReplaceAll(s[1..], p, rep), p, 0)
  {
    var t := ReplaceAll(s[1..], p, rep);
    var r := [s[0]] + t;
    if |p| <= |r| {
      if s[0] == p[0] {
        assert s[..|p|] == [s[0]] + s[1..][..|p| - 1];
        ReplaceAllKeepsMismatch(s[1..], p, rep, p[1..]);
        assert r[..|p|] == [s[0]] + t[..|p| - 1];
      } else {
        assert r[..|p|][0] == s[0];
      }
    }
  }

  /** A character in front of text without the pattern adds an occurrence
      only where it starts one. */
  lemma NoneAfterHead(x: char, t: string, p: string)
    requires !Contains(t, p) && !OccursAt([x] + t, p, 0)
    ensures !Contains([x] + t, p)
  {
    var r := [x] + t;
    forall i: nat | 0 < i ensures !OccursAt(r, p, i) {
      if i + |p| <= |r| {
        assert r[i..i + |p|] == t[i - 1..i - 1 + |p|];
        assert !OccursAt(t, p, i - 1);
      }
    }
  }

  /** Text before the first occurrence that cannot start the pattern is
      copied; the occurrence is replaced and the scan goes on behind it. */
  lemma {:induction false} ReplaceAllSkipsTo(a: string, p: string, rep: string, b: string)
    requires |p| > 0 && p[0] !in a
    ensures ReplaceAll(a + p + b, p, rep) == a + rep + ReplaceAll(b, p, rep)
    decreases |a|
  {
    var s := a + p + b;
    if |a| == 0 {
      assert s == p + b && s[..|p|] == p && s[|p|..] == b;
    } else {
      assert s[0] == a[0] && s[..|p|][0] != p[0];
      assert ReplaceAll(s, p, rep) == [a[0]] + ReplaceAll(s[1..], p, rep);
      assert s[1..] == a[1..] + p + b;
      ReplaceAllSkipsTo(a[1..], p, rep, b);
      assert a + rep + ReplaceAll(b, p, rep) == [a[0]] + (a[1..] + rep + ReplaceAll(b, p, rep));
    }
  }

  /** `s.replace(/c/g, '')` for a single character. */
  function RemoveChar(s: string, c: char): (r: string)
    ensures c !in r
    ensures |r| + Count(s, c) == |s|
    ensures forall x :: x in r ==> x in s
  {
    if |s| == 0 then ""
    else if s[0] == c then RemoveChar(s[1..], c)
    else [s[0]] + RemoveChar(s[1..], c)
  }

  // ---------------------------------------------------------------------------
  // split / join

  /** `s.split(c)` for a one-character separator. */
  function Split(s: string, c: char): (parts: seq<string>)
    decreases |s|
    ensures |parts| == Count(s, c) + 1
    ensures forall k :: 0 <= k < |parts| ==> c !in parts[k]
  {
    var i := IndexOf(s, [c]);
    if i < 0 then
      assert forall k :: 0 <= k < |s| ==> s[k] != c by {
        forall k | 0 <= k < |s| ensures s[k] != c {
          assert !OccursAt(s, [c], k);
        }
      }
      [s]
    else
      assert OccursAt(s, [c], i);
      assert s == s[..i] + [c] + s[i + 1..];
      assert c !in s[..i] by {
        forall k | 0 <= k < i ensures s[k] != c {
          assert !OccursAt(s, [c], k);
        }
      }
      CountAppend(s[..i] + [c], s[i + 1..], c);
      CountAppend(s[..i], [c], c);
      [s[..i]] + Split(s[i + 1..], c)
  }

  /** `parts.join(sep)`. */
  function Join(parts: seq<string>, sep: string): string {
    if |parts| == 0 then ""
    else if |parts| == 1 then parts[0]
    else parts[0] + sep + Join(parts[1..], sep)
  }

  /** Joining the pieces of a split restores the string. */
  lemma {:induction false} JoinSplit(s: string, c: char)
    ensures Join(Split(s, c), [c]) == s
    decreases |s|
  {
    var i := IndexOf(s, [c]);
    if i >= 0 {
      var tail := s[i + 1..];
      JoinSplit(tail, c);
      SplitAt(s, c, i);
      JoinCons(s[..i], Split(tail, c), [c]);
    }
  }

  /** One step of `Split` at the first separator, at position `i`. */
  lemma SplitAt(s: string, c: char, i: int)
    requires i == IndexOf(s, [c]) && i >= 0
    ensures i < |s| && s == s[..i] + [c] + s[i + 1..]
    ensures Split(s, c) == [s[..i]] + Split(s[i + 1..], c)
  {
    assert OccursAt(s, [c], i);
    assert s[i] == c;
    assert s == s[..i] + s[i..] && s[i..] == [c] + s[i + 1..];
  }

  lemma JoinCons(p: string, ps: seq<string>, sep: string)
    requires |ps| > 0
    ensures Join([p] + ps, sep) == p + sep + Join(ps, sep)
  {
    assert ([p] + ps)[0] == p && ([p] + ps)[1..] == ps;
  }

  /** Splitting a join of separator-free pieces gives the pieces back. */
  lemma {:induction false} SplitJoin(parts: seq<string>, c: char)
    requires |parts| > 0
    requires forall k :: 0 <= k < |parts| ==> c !in parts[k]
    ensures Split(Join(parts, [c]), c) == parts
  {
    var p := parts[0];
    NoOccurrence(p, c);
    if |parts| == 1 {
      assert IndexOf(p, [c]) == -1;
    } else {
      var rest := Join(parts[1..], [c]);
      var s := p + [c] + rest;
      assert Join(parts, [c]) == s;
      assert OccursAt(s, [c], |p|);
      forall k | 0 <= k < |p| ensures !OccursAt(s, [c], k) {
        assert s[k] == p[k];
      }
      assert IndexOf(s, [c]) == |p|;
      assert s[..|p|] == p;
      assert s[|p| + 1..] == rest;
      SplitJoin(parts[1..], c);
    }
  }

  lemma NoOccurrence(s: string, c: char)
    requires c !in s
    ensures IndexOf(s, [c]) == -1
  {
    forall k: nat ensures !OccursAt(s, [c], k) {
      if k < |s| {
        assert s[k] in s;
      }
    }
  }

  // ---------------------------------------------------------------------------
  // trim

  /** Number of trailing `IsSpace` characters of `s`. */
  function TrailingSpaces(s: string): (n: nat)
    ensures n <= |s|
    ensures forall k :: |s| - n <= k < |s| ==> IsSpace(s[k])
    ensures n < |s| ==> !IsSpace(s[|s| - n - 1])
  {
    if |s| == 0 || !IsSpace(s[|s| - 1]) then 0 else 1 + TrailingSpaces(s[..|s| - 1])
  }

  /** `s.trim()`: the longest middle slice of `s` that neither starts nor ends
      with white space; everything cut off is white space. */
  function Trim(s: string): (r: string)
    ensures SpaceRun(s) + |r| <= |s|
    ensures r == s[SpaceRun(s)..SpaceRun(s) + |r|]
    ensures forall k :: 0 <= k < SpaceRun(s) ==> IsSpace(s[k])
    ensures forall k :: SpaceRun(s) + |r| <= k < |s| ==> IsSpace(s[k])
    ensures |r| > 0 ==> !IsSpace(r[0]) && !IsSpace(r[|r| - 1])
  {
    var lead := SpaceRun(s);
    if lead == |s| then ""
    else
      var r := s[lead..];
      var t := TrailingSpaces(r);
      assert t < |r|;
      r[..|r| - t]
  }

  // ---------------------------------------------------------------------------
  // Numbers

  function DigitChar(d: nat): char
    requires d < 10
  {
    ['0', '1', '2', '3', '4', '5', '6', '7', '8', '9'][d]
  }

  function DigitValue(c: char): nat
    requires IsDigit(c)
  {
    (c as int - '0' as int) as nat
  }

  /** `String(n)` (and template-literal interpolation) of a natural number. */
  function Decimal(n: nat): (s: string)
    ensures |s| > 0
    ensures forall k :: 0 <= k < |s| ==> IsDigit(s[k])
    ensures n >= 10 ==> |s| >= 2
  {
    if n < 10 then [DigitChar(n)] else Decimal(n / 10) + [DigitChar(n % 10)]
  }

  lemma DecimalTwo()
    ensures Decimal(2) == "2"
  {
    assert Decimal(2) == [DigitChar(2)];
  }

  /** `parseInt` of a run of decimal digits. */
  function ParseDigits(s: string): nat
    requires forall k :: 0 <= k < |s| ==> IsDigit(s[k])
  {
    if |s| == 0 then 0 else 10 * ParseDigits(s[..|s| - 1]) + DigitValue(s[|s| - 1])
  }

  /** Printing a number and parsing it back gives the number. */
  lemma {:induction false} ParseDecimal(n: nat)
    ensures ParseDigits(Decimal(n)) == n
  {
    var s := Decimal(n);
    if n < 10 {
      assert s[..0] == "";
    } else {
      ParseDecimal(n / 10);
      assert s[..|s| - 1] == Decimal(n / 10);
    }
  }

  lemma DecimalLastDigit(n: nat)
    ensures Decimal(n)[|Decimal(n)| - 1] == DigitChar(n % 10)
  {
  }

  // ---------------------------------------------------------------------------
  // slice

  /** How `Array.prototype.slice` turns a possibly negative bound into a
      position: negative counts from the end, and both ends are clamped. */
  function SliceIndex(k: int, len: nat): (r: nat)
    ensures r <= len
    ensures 0 <= k <= len ==> r == k
    ensures k < 0 && len + k >= 0 ==> r == len + k
  {
    if k < 0 then (if len + k < 0 then 0 else len + k)
    else if k > len then len
    else k
  }

  /** `xs.slice(start, end)`. */
  function Slice<T>(xs: seq<T>, start: int, end: int): (r: seq<T>)
    ensures |r| <= |xs|
    ensures forall x :: x in r ==> x in xs
  {
    var a := SliceIndex(start, |xs|);
    var b := SliceIndex(end, |xs|);
    if a < b then xs[a..b] else []
  }

  /** `xs.findIndex(p)`: the first position whose element satisfies `p`, or -1. */
  function FindIndex<T>(xs: seq<T>, p: T -> bool): (r: int)
    ensures -1 <= r < |xs|
    ensures r >= 0 ==> p(xs[r])
    ensures forall k :: 0 <= k < |xs| && (r < 0 || k < r) ==> !p(xs[k])
  {
    if |xs| == 0 then -1
    else if p(xs[0]) then 0
    else var r := FindIndex(xs[1..], p); if r < 0 then -1 else r + 1
  }

  // ---------------------------------------------------------------------------
  // Comparison

  /** JavaScript's `a < b` on strings: lexicographic order of characters. */
  predicate Less(a: string, b: string) {
    if |a| == 0 then |b| > 0
    else if |b| == 0 then false
    else if a[0] != b[0] then a[0] < b[0]
    else Less(a[1..], b[1..])
  }

  lemma {:induction false} LessIrreflexive(a: string)
    ensures !Less(a, a)
  {
    if |a| > 0 {
      LessIrreflexive(a[1..]);
    }
  }

  lemma {:induction false} LessTransitive(a: string, b: string, c: string)
    requires Less(a, b) && Less(b, c)
    ensures Less(a, c)
  {
    if |a| > 0 && |b| > 0 && |c| > 0 && a[0] == b[0] && b[0] == c[0] {
      LessTransitive(a[1..], b[1..], c[1..]);
    }
  }

  lemma {:induction false} LessTotal(a: string, b: string)
    ensures a == b || Less(a, b) || Less(b, a)
  {
    if |a| > 0 && |b| > 0 && a[0] == b[0] {
      LessTotal(a[1..], b[1..]);
      if a[1..] == b[1..] {
        assert a == [a[0]] + a[1..] && b == [b[0]] + b[1..];
      }
    }
  }
}

=== FILE: keys.dfy ===
/** The snapshot store as `addTests` (bridge.ts) reads it: per test file, an
    object whose own property names are snapshot keys such as
    `"Foo renders 1"`, in property order.
 */
module Keys {
  import opened JsString

  /** One property of a suite's snapshot object. */
  datatype Entry = Entry(key: string, value: string)

  /** `snapshots[suite.testFilePath] || {}`: a file without snapshots has
      no keys. */
  function SuiteEntries(store: map<string, seq<Entry>>, testFilePath: string): (r: seq<Entry>)
    ensures testFilePath !in store ==> r == []
    ensures testFilePath in store ==> r == store[testFilePath]
  {
    if testFilePath in store then store[testFilePath] else []
  }

  /** `keys.filter(k => k.indexOf(test.fullName) >= 0)`: the keys that
      contain the test's full name anywhere, in key order. */
  function MatchingKeys(entries: seq<Entry>, fullName: string): (r: seq<Entry>)
    ensures |r| <= |entries|
    ensures forall k :: 0 <= k < |r| ==> r[k] in entries && Contains(r[k].key, fullName)
    ensures forall k :: 0 <= k < |entries| && Contains(entries[k].key, fullName) ==> entries[k] in r
  {
    if |entries| == 0 then []
    else (if Contains(entries[0].key, fullName) then [entries[0]] else [])
         + MatchingKeys(entries[1..], fullName)
  }

  /** The positions, from `from` on, of the entries whose key contains the
      name, in increasing order. */
  function MatchPositions(entries: seq<Entry>, fullName: string, from: nat): (p: seq<nat>)
    requires from <= |entries|
    decreases |entries| - from
    ensures forall k :: 0 <= k < |p| ==> from <= p[k] < |entries| && Contains(entries[p[k]].key, fullName)
    ensures forall k, l :: 0 <= k < l < |p| ==> p[k] < p[l]
    ensures forall i :: from <= i < |entries| && Contains(entries[i].key, fullName) ==> i in p
  {
    if from == |entries| then []
    else (if Contains(entries[from].key, fullName) then [from] else [])
         + MatchPositions(entries, fullName, from + 1)
  }

  /** The matching keys are the entries at exactly the matching positions,
      in key order. */
  lemma MatchingKeysInOrder(entries: seq<Entry>, fullName: string)
    ensures var p := MatchPositions(entries, fullName, 0);
            && |MatchingKeys(entries, fullName)| == |p|
            && forall k :: 0 <= k < |p| ==> MatchingKeys(entries, fullName)[k] == entries[p[k]]
  {
    MatchingKeysFrom(entries, fullName, 0);
    assert entries[0..] == entries;
  }

  lemma {:induction false} MatchingKeysFrom(entries: seq<Entry>, fullName: string, from: nat)
    requires from <= |entries|
    ensures var p := MatchPositions(entries, fullName, from);
            var r := MatchingKeys(entries[from..], fullName);
            |r| == |p| && forall k :: 0 <= k < |p| ==> r[k] == entries[p[k]]
    decreases |entries| - from
  {
    if from < |entries| {
      MatchingKeysFrom(entries, fullName, from + 1);
      assert entries[from..][1..] == entries[from + 1..];
      assert entries[from..][0] == entries[from];
    }
  }

  /** `matchingSnapshots[0]` is the first entry, in key order, whose key
      contains the name. */
  lemma FirstMatchingKey(entries: seq<Entry>, fullName: string, i: nat)
    requires i < |entries| && Contains(entries[i].key, fullName)
    requires forall j :: 0 <= j < i ==> !Contains(entries[j].key, fullName)
    ensures |MatchingKeys(entries, fullName)| > 0 && MatchingKeys(entries, fullName)[0] == entries[i]
  {
    var p := MatchPositions(entries, fullName, 0);
    MatchingKeysInOrder(entries, fullName);
    assert i in p;
    var m :| 0 <= m < |p| && p[m] == i;
    assert p[0] <= i;
  }

  /** The empty name occurs in every key, so a test with an empty full
      name claims all of its file's snapshots. */
  lemma {:induction false} EmptyNameMatchesAll(entries: seq<Entry>)
    ensures MatchingKeys(entries, "") == entries
  {
    if |entries| > 0 {
      assert OccursAt(entries[0].key, "", 0);
      EmptyNameMatchesAll(entries[1..]);
    }
  }
}

=== FILE: markup.dfy ===
/** Markup normalisation applied to both sides of every snapshot
    (bridge.ts): `className=` becomes `class=`, and a self-closing element
    `<tag attrs/>` is expanded to `<tag attrs></tag>` by a global regular
    expression replacement.
 */
module Markup {
  import opened JsString

  /** Position of the first `>` at or after `from`, or `|s|` when there is none. */
  function FirstClose(s: string, from: nat): (j: nat)
    requires from <= |s|
    decreases |s| - from
    ensures from <= j <= |s|
    ensures j < |s| ==> s[j] == '>'
    ensures forall k :: from <= k < j ==> s[k] != '>'
  {
    if from == |s| || s[from] == '>' then from else FirstClose(s, from + 1)
  }

  /** A match of `/<(\w+)([^>]{min,})\/>/` at the very start of `s`, where
      `{min,}` is `+` for `minAttrs == 1` and `*` for `minAttrs == 0`.
      Neither group can contain `>`, so the match ends at the first `>`;
      greedy `\w+` gives back characters only when the attribute group needs
      them.  The result is the length of the captured tag name and the length
      of the whole match. */
  function TagAt(s: string, minAttrs: nat): (r: Option<(nat, nat)>)
    ensures r.Some? ==> 1 <= r.value.0 && 1 + r.value.0 + 2 <= r.value.1 <= |s|
  {
    if |s| > 0 && s[0] == '<' then
      var j := FirstClose(s, 1);
      if j < |s| && j >= 2 && s[j - 1] == '/' then
        var inner := j - 2;
        var w := WordRun(s[1..]);
        if w >= 1 && inner >= 1 + minAttrs then
          var name := if w <= inner - minAttrs then w else inner - minAttrs;
          Some((name, j + 1))
        else None
      else None
    else None
  }

  /** `s.replace(/<(\w+)([^>]{min,})\/>/gm, '<$1$2></$1>')`: matches are
      replaced left to right, and the scan resumes behind each match. */
  function Expand(s: string, minAttrs: nat): (r: string)
    decreases |s|
    ensures |r| >= |s|
  {
    if |s| == 0 then ""
    else match TagAt(s, minAttrs)
      case Some((n, end)) =>
        var name := s[1..1 + n];
        var attrs := s[1 + n..end - 2];
        "<" + name + attrs + "></" + name + ">" + Expand(s[end..], minAttrs)
      case None => [s[0]] + Expand(s[1..], minAttrs)
  }

  /** The expansion as bridge.ts writes it, with `([^>]+)`. */
  function ExpandAsWritten(s: string): string { Expand(s, 1) }

  /** The expansion with `([^>]*)`, which keeps the whole tag name. */
  function ExpandSelfClosing(s: string): string { Expand(s, 0) }

  /** Both replacements of the snapshot normalisation as bridge.ts writes
      them: `className=` becomes `class=`, then self-closing elements are
      expanded with `([^>]+)`.  Text without markup and without
      `className=` is left alone, and only empty text becomes empty. */
  function Normalize(s: string): (r: string)
    ensures '<' !in s && !Contains(s, "className=") ==> r == s
    ensures |r| == 0 <==> |s| == 0
  {
    PlainTextUnchanged(s);
    ExpandAsWritten(ReplaceAll(s, "className=", "class="))
  }

  lemma PlainTextUnchanged(s: string)
    ensures '<' !in s && !Contains(s, "className=") ==> ExpandAsWritten(ReplaceAll(s, "className=", "class=")) == s
  {
    if '<' !in s && !Contains(s, "className=") {
      ReplaceAllAbsent(s, "className=", "class=");
      NoTagUnchanged(s, 1);
    }
  }

  /** The rewrite `className=` to `class=` leaves no `className=` behind:
      `class=` can neither complete one with the text before it nor start
      one. */
  lemma ClassNameGone(s: string)
    ensures !Contains(ReplaceAll(s, "className=", "class="), "className=")
  {
    ClassNamePatterns("className=", "class=");
    ReplaceAllLeavesNone(s, "className=", "class=");
  }

  /** Text without `c` in front of `className=` is kept, the attribute
      name becomes `class=`, and the rewrite goes on behind it. */
  lemma ClassNameFirst(a: string, b: string)
    requires 'c' !in a
    ensures ReplaceAll(a + "className=" + b, "className=", "class=")
         == a + "class=" + ReplaceAll(b, "className=", "class=")
  {
    ClassNamePatterns("className=", "class=");
    ReplaceAllSkipsTo(a, "className=", "class=", b);
  }

  /** A snapshot without elements and with one `className=` is normalised
      to the same text with `class=` in its place. */
  lemma NormalizeClassName(a: string, b: string)
    requires '<' !in a && '<' !in b && 'c' !in a && !Contains(b, "className=")
    ensures Normalize(a + "className=" + b) == a + "class=" + b
  {
    ClassNameFirst(a, b);
    ReplaceAllAbsent(b, "className=", "class=");
    var e := a + "class=" + b;
    assert '<' !in "class=";
    NoTagUnchanged(e, 1);
  }

  /** What the two patterns have that keeps the rewrite from making a new
      occurrence. */
  lemma ClassNamePatterns(p: string, rep: string)
    requires p == "className=" && rep == "class="
    ensures |p| >= |rep| > 0 && p[0] == 'c'
    ensures rep[|rep| - 1] !in p[..|rep|] && rep[0] !in p[1..]
  {
    assert p[..|rep|] == "classN" && p[1..] == "lassName=";
  }

  // ---------------------------------------------------------------------------
  // Properties

  predicate IsTagName(name: string) {
    |name| > 0 && forall k :: 0 <= k < |name| ==> IsWordChar(name[k])
  }

  /** Attributes that can follow a tag name: no `>`, and they do not
      continue the name. */
  predicate IsAttrs(attrs: string) {
    '>' !in attrs && (|attrs| == 0 || !IsWordChar(attrs[0]))
  }

  lemma TagAtElement(name: string, attrs: string, rest: string, minAttrs: nat)
    requires IsTagName(name) && IsAttrs(attrs) && minAttrs <= 1
    requires |attrs| >= minAttrs
    ensures TagAt("<" + name + attrs + "/>" + rest, minAttrs)
         == Some((|name|, |name| + |attrs| + 3))
  {
    var s := "<" + name + attrs + "/>" + rest;
    var j := |name| + |attrs| + 2;
    assert s[j] == '>';
    assert s[j - 1] == '/';
    assert forall k :: 1 <= k < j ==> s[k] != '>' by {
      forall k | 1 <= k < j ensures s[k] != '>' {
        if k <= |name| {
          assert s[k] == name[k - 1];
        } else if k < j - 1 {
          assert s[k] == attrs[k - 1 - |name|];
        }
      }
    }
    FirstCloseIs(s, 1, j);
    var t := s[1..];
    assert forall k :: 0 <= k < |name| ==> t[k] == name[k];
    if |attrs| > 0 {
      assert t[|name|] == attrs[0];
    } else {
      assert t[|name|] == '/';
    }
    RunLengthIs(t, IsWordChar, |name|);
  }

  lemma {:induction false} FirstCloseIs(s: string, from: nat, j: nat)
    requires from <= j < |s| && s[j] == '>'
    requires forall k :: from <= k < j ==> s[k] != '>'
    ensures FirstClose(s, from) == j
    decreases j - from
  {
    if from < j {
      FirstCloseIs(s, from + 1, j);
    }
  }

  /** The corrected expansion turns a self-closing element into an explicit
      pair whose closing tag repeats the full name. */
  lemma ExpandElement(name: string, attrs: string, rest: string)
    requires IsTagName(name) && IsAttrs(attrs)
    ensures ExpandSelfClosing("<" + name + attrs + "/>" + rest)
         == "<" + name + attrs + "></" + name + ">" + ExpandSelfClosing(rest)
  {
    ExpandAtElement(name, attrs, rest, 0);
  }

  lemma ExpandAtElement(name: string, attrs: string, rest: string, minAttrs: nat)
    requires IsTagName(name) && IsAttrs(attrs) && minAttrs <= 1 && |attrs| >= minAttrs
    ensures Expand("<" + name + attrs + "/>" + rest, minAttrs)
         == "<" + name + attrs + "></" + name + ">" + Expand(rest, minAttrs)
  {
    var s := "<" + name + attrs + "/>" + rest;
    TagAtElement(name, attrs, rest, minAttrs);
    ExpandAt(s, minAttrs, |name|, |name| + |attrs| + 3);
    SplitElement(name, attrs, rest);
  }

  /** One unfolding of `Expand` at a known match. */
  lemma ExpandAt(s: string, minAttrs: nat, n: nat, end: nat)
    requires TagAt(s, minAttrs) == Some((n, end))
    ensures 1 + n + 2 <= end <= |s|
    ensures Expand(s, minAttrs)
         == "<" + s[1..1 + n] + s[1 + n..end - 2] + "></" + s[1..1 + n] + ">" + Expand(s[end..], minAttrs)
  {
  }

  lemma SplitElement(name: string, attrs: string, rest: string)
    ensures var s := "<" + name + attrs + "/>" + rest;
            && s[1..1 + |name|] == name
            && s[1 + |name|..|name| + |attrs| + 1] == attrs
            && s[|name| + |attrs| + 3..] == rest
  {
  }

  /** As written, the same holds only when there is at least one attribute
      character. */
  lemma ExpandAsWrittenWithAttrs(name: string, attrs: string, rest: string)
    requires IsTagName(name) && IsAttrs(attrs) && |attrs| > 0
    ensures ExpandAsWritten("<" + name + attrs + "/>" + rest)
         == "<" + name + attrs + "></" + name + ">" + ExpandAsWritten(rest)
  {
    ExpandAtElement(name, attrs, rest, 1);
  }

  /** With no attributes, `([^>]+)` takes the last letter of the name, so
      the closing tag is cut short: `<br/>` becomes `<br></b>`. */
  lemma AsWrittenCutsName()
    ensures ExpandAsWritten("<br/>") == "<br></b>"
    ensures ExpandSelfClosing("<br/>") == "<br></br>"
  {
    BrExpansions("<br/>");
  }

  lemma BrExpansions(s: string)
    requires s == "<br/>"
    ensures ExpandAsWritten(s) == "<br></b>"
    ensures ExpandSelfClosing(s) == "<br></br>"
  {
    var br := "br";
    assert IsWordChar(br[0]) && IsWordChar(br[1]);
    assert s == "<" + br + "/>" + "" && s == "<" + br + "" + "/>" + "";
    AsWrittenCutsLastLetter(br, "");
    assert br[..1] == "b";
    ExpandElement(br, "", "");
    assert ExpandAsWritten("") == "" && ExpandSelfClosing("") == "";
    assert "<" + br + "></" + "b" + ">" + "" == "<br></b>";
    assert "<" + br + "" + "></" + br + ">" + "" == "<br></br>";
  }

  /** The same for every tag name of two or more characters without
      attributes: the closing tag loses the name's last character. */
  lemma AsWrittenCutsLastLetter(name: string, rest: string)
    requires IsTagName(name) && |name| >= 2
    ensures ExpandAsWritten("<" + name + "/>" + rest)
         == "<" + name + "></" + name[..|name| - 1] + ">" + ExpandAsWritten(rest)
  {
    var s := "<" + name + "/>" + rest;
    var n := |name| - 1;
    TagAtCut(name, rest);
    ExpandAt(s, 1, n, n + 4);
    var a, b := s[1..1 + n], s[1 + n..n + 2];
    assert a == name[..n] && b == [name[n]] by {
      assert forall k :: 0 <= k < n ==> s[1 + k] == name[k];
    }
    assert s[n + 4..] == rest;
    assert a + b == name;
    assert "<" + a + b == "<" + name;
  }

  /** The match `([^>]+)` finds in `<name/>`: the name less its last
      character, and the whole element. */
  lemma TagAtCut(name: string, rest: string)
    requires IsTagName(name) && |name| >= 2
    ensures TagAt("<" + name + "/>" + rest, 1) == Some((|name| - 1, |name| + 3))
  {
    var s := "<" + name + "/>" + rest;
    var j := |name| + 2;
    assert s[j] == '>' && s[j - 1] == '/';
    assert forall k :: 1 <= k < j ==> s[k] != '>' by {
      forall k | 1 <= k < j ensures s[k] != '>' {
        if k <= |name| {
          assert s[k] == name[k - 1];
        }
      }
    }
    FirstCloseIs(s, 1, j);
    var t := s[1..];
    assert forall k :: 0 <= k < |name| ==> t[k] == name[k];
    assert t[|name|] == '/';
    RunLengthIs(t, IsWordChar, |name|);
  }

  /** As written, a self-closing element with a one-letter name and no
      attributes is not matched at all: `([^>]+)` can only take the `/`,
      and then `\/>` is missing.  It stays self-closing. */
  lemma OneLetterKept(c: char, rest: string)
    requires IsWordChar(c)
    ensures ExpandAsWritten("<" + [c] + "/>" + rest) == "<" + [c] + "/>" + ExpandAsWritten(rest)
  {
    var s := "<" + [c] + "/>" + rest;
    assert s[1] == c && s[2] == '/' && s[3] == '>';
    FirstCloseIs(s, 1, 3);
    assert TagAt(s, 1).None?;
    assert s[1..][0] == c && TagAt(s[1..], 1).None?;
    assert s[2..][0] == '/' && TagAt(s[2..], 1).None?;
    assert s[3..][0] == '>' && TagAt(s[3..], 1).None?;
    assert s[1..][1..] == s[2..] && s[2..][1..] == s[3..] && s[3..][1..] == rest;
    assert Expand(s[3..], 1) == ">" + Expand(rest, 1);
    assert Expand(s[2..], 1) == "/" + Expand(s[3..], 1);
    assert Expand(s[1..], 1) == [c] + Expand(s[2..], 1);
    assert Expand(s, 1) == "<" + Expand(s[1..], 1);
  }

  /** Text without `<` is left alone by either expansion. */
  lemma {:induction false} NoTagUnchanged(s: string, minAttrs: nat)
    requires '<' !in s
    ensures Expand(s, minAttrs) == s
  {
    if |s| > 0 {
      assert s[0] in s;
      assert '<' !in s[1..] by {
        forall k | 0 <= k < |s| - 1 ensures s[1..][k] != '<' {
          assert s[1..][k] == s[k + 1] && s[k + 1] in s;
        }
      }
      NoTagUnchanged(s[1..], minAttrs);
      assert s[0] != '<' && TagAt(s, minAttrs).None?;
      assert Expand(s, minAttrs) == [s[0]] + Expand(s[1..], minAttrs);
      assert s == [s[0]] + s[1..];
    }
  }
}

=== FILE: matcher.dfy ===
/** `addTests` and the tail of `describe` (bridge.ts): the tests of every
    suite whose ancestor titles, joined by spaces, equal the group's simple
    path are appended to the group, with their error and snapshots; the
    group's pass and fail counters are recomputed; then the parent's groups
    and the group's tests are sorted by name.
 */
module Matcher {
  import opened JsString
  import opened Keys
  import opened Clean
  import opened Failure
  import opened Snapshots
  import opened Ordering

  /** `test.status`; `Other` stands for every status besides the three the
      code looks at (`skipped`, `todo`, `disabled`). */
  datatype Status = Passed | Failed | Pending | Other

  /** One entry of a suite's `testResults`.  An absent duration is `None`. */
  datatype RawTest = RawTest(title: string, fullName: string, ancestorTitles: seq<string>,
                             status: Status, duration: Option<int>, failureMessages: seq<string>)

  /** One entry of the aggregated `testResults`. */
  datatype Suite = Suite(testFilePath: string, testResults: seq<RawTest>)

  /** A test as the explorer shows it; `groupName` is its parent's name. */
  datatype Test = Test(name: string, groupName: string, duration: int, endTime: int,
                       error: Option<TestError>, snapshots: seq<Snapshot>)

  datatype Group = Group(name: string, simplePath: string, tests: seq<Test>,
                         passingTests: nat, failingTests: nat)

  /** A test of some suite, with that suite's snapshot entries. */
  datatype Candidate = Candidate(entries: seq<Entry>, raw: RawTest)

  /** `state.liveRoot.findTest(name, parentName)`: the test of the previous
      run with that name in the group of that name, if any. */
  type Lookup = (string, string) -> Option<Test>

  /** How a test that is not replaced by a known one is built from its
      result, given the group's name.  The code builds it as `FreshTest`
      describes (see `BuildTest`). */
  type Builder = (Candidate, string) -> Test

  /** `test.ancestorTitles.join(' ')`. */
  function TestPath(raw: RawTest): string {
    Join(raw.ancestorTitles, " ")
  }

  /** `test.duration || 1`: a missing or zero duration becomes 1. */
  function EffectiveDuration(d: Option<int>): (r: int)
    ensures r != 0
    ensures d.Some? && d.value != 0 ==> r == d.value
  {
    if d.Some? && d.value != 0 then d.value else 1
  }

  // ---------------------------------------------------------------------------
  // Which tests belong to the group

  /** The tests of one suite whose path is `path`, in order. */
  function SuiteCandidates(entries: seq<Entry>, tests: seq<RawTest>, path: string): (r: seq<Candidate>)
    ensures |r| <= |tests|
    ensures forall k :: 0 <= k < |r| ==> TestPath(r[k].raw) == path && r[k].entries == entries
    decreases |tests|
  {
    if |tests| == 0 then []
    else
      var last := tests[|tests| - 1];
      SuiteCandidates(entries, tests[..|tests| - 1], path)
      + (if TestPath(last) == path then [Candidate(entries, last)] else [])
  }

  /** The tests of all suites whose path is `path`, suite by suite, each
      with the snapshot entries stored for its file. */
  function Candidates(suites: seq<Suite>, store: map<string, seq<Entry>>, path: string)
    : (r: seq<Candidate>)
    ensures forall k :: 0 <= k < |r| ==> TestPath(r[k].raw) == path
    decreases |suites|
  {
    if |suites| == 0 then []
    else
      var last := suites[|suites| - 1];
      Candidates(suites[..|suites| - 1], store, path)
      + SuiteCandidates(SuiteEntries(store, last.testFilePath), last.testResults, path)
  }

  // ---------------------------------------------------------------------------
  // What happens to one matching test

  /** A test built from its result: title, duration, the error of its first
      failure message, and its snapshots. */
  function FreshTest(c: Candidate, groupName: string): (t: Test)
    ensures t.name == c.raw.title && t.groupName == groupName
    ensures t.duration == t.endTime && t.duration != 0
    ensures t.error.Some? <==> |c.raw.failureMessages| > 0
    ensures t.error.Some? ==> t.error.value.message == c.raw.failureMessages[0]
    ensures t.error.Some? ==>
              t.error.value == BuildError(c.raw.failureMessages[0], c.raw.fullName, c.entries)
    ensures t.error.Some? && SnapshotApplies(CleanMessage(c.raw.failureMessages[0]), c.raw.fullName, c.entries) ==>
              t.error.value.expected == Some(Trim(MatchingKeys(c.entries, c.raw.fullName)[0].value))
    ensures |t.snapshots| == |MatchingKeys(c.entries, c.raw.fullName)|
    ensures forall k :: 0 <= k < |t.snapshots| ==>
              var entry := MatchingKeys(c.entries, c.raw.fullName)[k];
              && t.snapshots[k].originalName == entry.key && t.snapshots[k].matching
              && t.snapshots[k].name == Names(KeysOf(MatchingKeys(c.entries, c.raw.fullName)), c.raw.fullName, 1)[k]
              && t.snapshots[k].expected == Expected(entry.value)
              && t.snapshots[k].current == Current(entry.value, t.error)
  {
    var d := EffectiveDuration(c.raw.duration);
    var error := if |c.raw.failureMessages| > 0
                 then Some(BuildError(c.raw.failureMessages[0], c.raw.fullName, c.entries))
                 else None;
    Test(c.raw.title, groupName, d, d, error, SnapshotsFor(c.entries, c.raw.fullName, error))
  }

  /** The known test for a pending test, if the lookup has one; other
      tests are not looked up. */
  function PriorOf(c: Candidate, groupName: string, findPrior: Lookup): Option<Test> {
    if c.raw.status == Pending then findPrior(c.raw.title, groupName) else None
  }

  /** The test pushed for a candidate: the known test, or a built one. */
  function Admitted(c: Candidate, groupName: string, findPrior: Lookup, build: Builder): Test {
    match PriorOf(c, groupName, findPrior)
    case Some(prior) => prior
    case None => build(c, groupName)
  }

  /** Whether the candidate raises the passing counter. */
  predicate RaisesPassing(c: Candidate, groupName: string, findPrior: Lookup) {
    match PriorOf(c, groupName, findPrior)
    case Some(prior) => prior.error.None?
    case None => c.raw.status == Passed
  }

  /** Whether the candidate raises the failing counter. */
  predicate RaisesFailing(c: Candidate, groupName: string, findPrior: Lookup) {
    match PriorOf(c, groupName, findPrior)
    case Some(prior) => prior.error.Some?
    case None => c.raw.status == Failed
  }

  /** The group after pushing one more matching test and raising its
      counter: the earlier tests stay in front, the new test is the known
      one only for a pending test, and at most one counter goes up, by one. */
  function Push(g: Group, c: Candidate, findPrior: Lookup, build: Builder): (r: Group)
    ensures r.name == g.name && r.simplePath == g.simplePath
    ensures |r.tests| == |g.tests| + 1 && r.tests[..|g.tests|] == g.tests
    ensures || r.tests[|g.tests|] == build(c, g.name)
            || (c.raw.status == Pending && findPrior(c.raw.title, g.name) == Some(r.tests[|g.tests|]))
    ensures g.passingTests <= r.passingTests && g.failingTests <= r.failingTests
    ensures r.passingTests + r.failingTests <= g.passingTests + g.failingTests + 1
  {
    AdmitCases(c, g.name, findPrior, build);
    g.(tests := g.tests + [Admitted(c, g.name, findPrior, build)],
       passingTests := g.passingTests + (if RaisesPassing(c, g.name, findPrior) then 1 else 0),
       failingTests := g.failingTests + (if RaisesFailing(c, g.name, findPrior) then 1 else 0))
  }

  /** The group after pushing the candidates in order. */
  function PushAll(g: Group, cs: seq<Candidate>, findPrior: Lookup, build: Builder): (r: Group)
    ensures r.name == g.name && r.simplePath == g.simplePath
    decreases |cs|
  {
    if |cs| == 0 then g
    else Push(PushAll(g, cs[..|cs| - 1], findPrior, build), cs[|cs| - 1], findPrior, build)
  }

  /** The tests pushed for the candidates, in order. */
  function Appended(cs: seq<Candidate>, groupName: string, findPrior: Lookup, build: Builder)
    : (r: seq<Test>)
    ensures |r| == |cs|
  {
    seq(|cs|, k requires 0 <= k < |cs| => Admitted(cs[k], groupName, findPrior, build))
  }

  /** How many of the candidates raise the passing counter. */
  function PassCount(cs: seq<Candidate>, groupName: string, findPrior: Lookup): nat
    decreases |cs|
  {
    if |cs| == 0 then 0
    else PassCount(cs[..|cs| - 1], groupName, findPrior)
         + (if RaisesPassing(cs[|cs| - 1], groupName, findPrior) then 1 else 0)
  }

  /** How many of the candidates raise the failing counter. */
  function FailCount(cs: seq<Candidate>, groupName: string, findPrior: Lookup): nat
    decreases |cs|
  {
    if |cs| == 0 then 0
    else FailCount(cs[..|cs| - 1], groupName, findPrior)
         + (if RaisesFailing(cs[|cs| - 1], groupName, findPrior) then 1 else 0)
  }

  /** The group after `addTests`: counters reset to 0; without test results
      nothing else happens; otherwise every matching test is pushed. */
  function Added(group: Group, results: Option<seq<Suite>>, store: map<string, seq<Entry>>,
                 findPrior: Lookup, build: Builder): (r: Group)
    ensures r.name == group.name && r.simplePath == group.simplePath
    ensures results.None? ==> r.tests == group.tests && r.passingTests == 0 && r.failingTests == 0
  {
    var reset := group.(passingTests := 0, failingTests := 0);
    if results.None? then reset
    else PushAll(reset, Candidates(results.value, store, group.simplePath), findPrior, build)
  }

  // ---------------------------------------------------------------------------
  // The operations

  /** `addTests`, loop by loop: the group value is updated in place of the
      mutable `TestGroup`. */
  method AddTests(group: Group, results: Option<seq<Suite>>, store: map<string, seq<Entry>>,
                  findPrior: Lookup, build: Builder) returns (g: Group)
    ensures g == Added(group, results, store, findPrior, build)
  {
    g := group.(passingTests := 0, failingTests := 0);
    if results.None? {
      return;
    }
    ghost var reset := g;
    var suites := results.value;
    var i := 0;
    while i < |suites|
      invariant 0 <= i <= |suites|
      invariant g == PushAll(reset, Candidates(suites[..i], store, group.simplePath), findPrior, build)
      invariant g.simplePath == group.simplePath
    {
      var suite := suites[i];
      var entries := SuiteEntries(store, suite.testFilePath);
      ghost var before := Candidates(suites[..i], store, group.simplePath);
      ghost var more := SuiteCandidates(entries, suite.testResults, group.simplePath);
      ghost var prev := g;
      g := AddSuite(g, suite.testResults, entries, findPrior, build);
      assert g == PushAll(prev, more, findPrior, build);
      PushAllAppend(reset, before, more, findPrior, build);
      CandidatesSnoc(suites, i, store, group.simplePath);
      assert g == PushAll(reset, before + more, findPrior, build);
      i := i + 1;
    }
    assert suites[..i] == suites;
  }

  lemma CandidatesSnoc(suites: seq<Suite>, i: nat, store: map<string, seq<Entry>>, path: string)
    requires i < |suites|
    ensures Candidates(suites[..i + 1], store, path)
         == Candidates(suites[..i], store, path)
            + SuiteCandidates(SuiteEntries(store, suites[i].testFilePath), suites[i].testResults, path)
  {
    assert suites[..i + 1][..i] == suites[..i];
  }

  /** The inner loop of `addTests`: the tests of one suite, in order. */
  method AddSuite(g: Group, tests: seq<RawTest>, entries: seq<Entry>,
                  findPrior: Lookup, build: Builder) returns (h: Group)
    ensures h == PushAll(g, SuiteCandidates(entries, tests, g.simplePath), findPrior, build)
  {
    h := g;
    var path := g.simplePath;
    var j := 0;
    while j < |tests|
      invariant 0 <= j <= |tests|
      invariant h == PushAll(g, SuiteCandidates(entries, tests[..j], path), findPrior, build)
    {
      var test := tests[j];
      ghost var cs := SuiteCandidates(entries, tests[..j], path);
      SuiteStep(entries, tests, j, path);
      if TestPath(test) == path {
        h := AddOne(h, test, entries, findPrior, build);
        PushAllSnoc(g, cs, Candidate(entries, test), findPrior, build);
      } else {
        assert SuiteCandidates(entries, tests[..j + 1], path) == cs;
      }
      j := j + 1;
    }
    assert tests[..j] == tests;
  }

  /** The body of the inner loop for a test whose path is the group's: a
      pending test the lookup knows is pushed as found and counted by its
      error (returning early stands for the `continue`); any other test is
      counted by its status, built and pushed. */
  method AddOne(g: Group, test: RawTest, entries: seq<Entry>,
                findPrior: Lookup, build: Builder) returns (h: Group)
    ensures h == Push(g, Candidate(entries, test), findPrior, build)
  {
    h := g;
    if test.status == Pending {
      var previous := findPrior(test.title, g.name);
      if previous.Some? {
        if previous.value.error.Some? {
          h := h.(failingTests := h.failingTests + 1);
        } else {
          h := h.(passingTests := h.passingTests + 1);
        }
        h := h.(tests := h.tests + [previous.value]);
        return;
      }
    }
    if test.status == Passed {
      h := h.(passingTests := h.passingTests + 1);
    } else if test.status == Failed {
      h := h.(failingTests := h.failingTests + 1);
    }
    var t := build(Candidate(entries, test), g.name);
    h := h.(tests := h.tests + [t]);
  }

  /** The test built for a result that the lookup does not replace, step by
      step as `addTests` fills it in: duration and end time, then the error
      when there is a failure message, then the snapshots when some key
      matches. */
  method BuildTest(c: Candidate, groupName: string) returns (t: Test)
    ensures t == FreshTest(c, groupName)
  {
    var d := EffectiveDuration(c.raw.duration);
    t := Test(c.raw.title, groupName, d, d, None, []);
    if |c.raw.failureMessages| > 0 {
      t := t.(error := Some(BuildError(c.raw.failureMessages[0], c.raw.fullName, c.entries)));
    }
    var matching := SnapshotsFor(c.entries, c.raw.fullName, t.error);
    if |matching| > 0 {
      t := t.(snapshots := matching);
    }
  }

  /** The sort key of tests. */
  function TestName(t: Test): string { t.name }

  /** The sort key of groups. */
  function GroupName(gr: Group): string { gr.name }

  /** The tail of `describe`: after `addTests` on the group at `index` of
      its parent's groups, the parent's groups and the group's tests are
      sorted by name.  The parent holds the group by reference, so its entry
      shows the sorted tests as well.  The code builds tests as
      `FreshTest` describes. */
  method Describe(siblings: seq<Group>, index: nat, results: Option<seq<Suite>>,
                  store: map<string, seq<Entry>>, findPrior: Lookup, build: Builder)
    returns (groups: seq<Group>, g: Group)
    requires index < |siblings|
    ensures g.name == siblings[index].name && g.simplePath == siblings[index].simplePath
    ensures g.passingTests == Added(siblings[index], results, store, findPrior, build).passingTests
    ensures g.failingTests == Added(siblings[index], results, store, findPrior, build).failingTests
    ensures SortedBy(g.tests, TestName)
    ensures multiset(g.tests) == multiset(Added(siblings[index], results, store, findPrior, build).tests)
    ensures SortedBy(groups, GroupName)
    ensures multiset(groups) == multiset(siblings[index := g])
  {
    var added := AddTests(siblings[index], results, store, findPrior, build);
    g := added.(tests := SortBy(added.tests, TestName));
    groups := SortBy(siblings[index := g], GroupName);
  }

  // ---------------------------------------------------------------------------
  // Properties

  /** A pending test that the previous run already knows is replaced by
      that known test and counted by whether it has an error; any other test
      is built and counted by its status; no test raises both counters. */
  lemma AdmitCases(c: Candidate, groupName: string, findPrior: Lookup, build: Builder)
    ensures !(RaisesPassing(c, groupName, findPrior) && RaisesFailing(c, groupName, findPrior))
    ensures c.raw.status == Pending && findPrior(c.raw.title, groupName).Some? ==>
              var t := Admitted(c, groupName, findPrior, build);
              && t == findPrior(c.raw.title, groupName).value
              && (RaisesFailing(c, groupName, findPrior) <==> t.error.Some?)
              && (RaisesPassing(c, groupName, findPrior) <==> t.error.None?)
    ensures !(c.raw.status == Pending && findPrior(c.raw.title, groupName).Some?) ==>
              && Admitted(c, groupName, findPrior, build) == build(c, groupName)
              && (RaisesPassing(c, groupName, findPrior) <==> c.raw.status == Passed)
              && (RaisesFailing(c, groupName, findPrior) <==> c.raw.status == Failed)
  {
  }

  /** Pushing candidates appends their tests in order and raises the
      counters by their counts. */
  lemma {:induction false} PushAllParts(g: Group, cs: seq<Candidate>, findPrior: Lookup, build: Builder)
    ensures PushAll(g, cs, findPrior, build).tests == g.tests + Appended(cs, g.name, findPrior, build)
    ensures PushAll(g, cs, findPrior, build).passingTests == g.passingTests + PassCount(cs, g.name, findPrior)
    ensures PushAll(g, cs, findPrior, build).failingTests == g.failingTests + FailCount(cs, g.name, findPrior)
    decreases |cs|
  {
    if |cs| > 0 {
      var init := cs[..|cs| - 1];
      PushAllParts(g, init, findPrior, build);
      assert Appended(cs, g.name, findPrior, build)
          == Appended(init, g.name, findPrior, build) + [Admitted(cs[|cs| - 1], g.name, findPrior, build)];
    }
  }

  /** Pushing one more candidate is one more `Push`. */
  lemma PushAllSnoc(g: Group, cs: seq<Candidate>, c: Candidate, findPrior: Lookup, build: Builder)
    ensures PushAll(g, cs + [c], findPrior, build) == Push(PushAll(g, cs, findPrior, build), c, findPrior, build)
  {
    assert (cs + [c])[..|cs|] == cs;
  }

  /** Pushing two runs of candidates is pushing the first, then the second. */
  lemma {:induction false} PushAllAppend(g: Group, cs: seq<Candidate>, more: seq<Candidate>,
                                         findPrior: Lookup, build: Builder)
    ensures PushAll(g, cs + more, findPrior, build)
         == PushAll(PushAll(g, cs, findPrior, build), more, findPrior, build)
    decreases |more|
  {
    if |more| == 0 {
      assert cs + more == cs;
    } else {
      var init := more[..|more| - 1];
      var c := more[|more| - 1];
      PushAllAppend(g, cs, init, findPrior, build);
      assert more == init + [c];
      assert cs + more == (cs + init) + [c];
      PushAllSnoc(g, cs + init, c, findPrior, build);
    }
  }

  /** The candidates after one more test of the suite. */
  lemma SuiteStep(entries: seq<Entry>, tests: seq<RawTest>, j: nat, path: string)
    requires j < |tests|
    ensures SuiteCandidates(entries, tests[..j + 1], path)
         == SuiteCandidates(entries, tests[..j], path)
            + (if TestPath(tests[j]) == path then [Candidate(entries, tests[j])] else [])
  {
    assert tests[..j + 1][..j] == tests[..j];
  }

  /** No test raises both counters, so together they never exceed the
      number of tests appended. */
  lemma {:induction false} CountsBounded(cs: seq<Candidate>, groupName: string, findPrior: Lookup)
    ensures PassCount(cs, groupName, findPrior) + FailCount(cs, groupName, findPrior) <= |cs|
    decreases |cs|
  {
    if |cs| > 0 {
      CountsBounded(cs[..|cs| - 1], groupName, findPrior);
    }
  }

  /** Every test of a suite whose path is the group's is among the suite's
      candidates, with the suite's entries. */
  lemma {:induction false} SuiteCandidatesComplete(entries: seq<Entry>, tests: seq<RawTest>,
                                                   path: string, k: nat)
    requires k < |tests| && TestPath(tests[k]) == path
    ensures Candidate(entries, tests[k]) in SuiteCandidates(entries, tests, path)
    decreases |tests|
  {
    if k < |tests| - 1 {
      assert tests[..|tests| - 1][k] == tests[k];
      SuiteCandidatesComplete(entries, tests[..|tests| - 1], path, k);
    }
  }

  /** Conversely, every candidate is a test of the suite. */
  lemma {:induction false} SuiteCandidatesSound(entries: seq<Entry>, tests: seq<RawTest>,
                                                path: string, c: Candidate)
    requires c in SuiteCandidates(entries, tests, path)
    ensures c.raw in tests && c.entries == entries && TestPath(c.raw) == path
    decreases |tests|
  {
    var last := tests[|tests| - 1];
    if c in SuiteCandidates(entries, tests[..|tests| - 1], path) {
      SuiteCandidatesSound(entries, tests[..|tests| - 1], path, c);
    } else {
      assert c == Candidate(entries, last);
    }
  }

  /** A test whose path differs from the group's adds nothing. */
  lemma OtherPathIgnored(entries: seq<Entry>, tests: seq<RawTest>, test: RawTest, path: string)
    requires TestPath(test) != path
    ensures SuiteCandidates(entries, tests + [test], path) == SuiteCandidates(entries, tests, path)
  {
    assert (tests + [test])[..|tests|] == tests;
  }

  /** The candidates with the given status. */
  function StatusIs(cs: seq<Candidate>, status: Status): (r: seq<Candidate>)
    ensures |r| <= |cs|
    ensures forall k :: 0 <= k < |r| ==> r[k].raw.status == status
    decreases |cs|
  {
    if |cs| == 0 then []
    else StatusIs(cs[..|cs| - 1], status)
         + (if cs[|cs| - 1].raw.status == status then [cs[|cs| - 1]] else [])
  }

  /** When the lookup finds nothing, the counters count the passed and the
      failed results exactly. */
  lemma {:induction false} CountsByStatus(cs: seq<Candidate>, groupName: string, findPrior: Lookup)
    requires forall name, parent :: findPrior(name, parent).None?
    ensures PassCount(cs, groupName, findPrior) == |StatusIs(cs, Passed)|
    ensures FailCount(cs, groupName, findPrior) == |StatusIs(cs, Failed)|
    decreases |cs|
  {
    if |cs| > 0 {
      CountsByStatus(cs[..|cs| - 1], groupName, findPrior);
      assert findPrior(cs[|cs| - 1].raw.title, groupName).None?;
    }
  }

  /** With test results, `addTests` appends the tests of every matching
      result to the tests already there and sets the counters to the
      numbers of passing and failing ones, which together never exceed the
      number appended. */
  lemma AddedSummary(group: Group, suites: seq<Suite>, store: map<string, seq<Entry>>,
                     findPrior: Lookup, build: Builder)
    ensures var r := Added(group, Some(suites), store, findPrior, build);
            var cs := Candidates(suites, store, group.simplePath);
            && r.tests == group.tests + Appended(cs, group.name, findPrior, build)
            && r.passingTests == PassCount(cs, group.name, findPrior)
            && r.failingTests == FailCount(cs, group.name, findPrior)
            && r.passingTests + r.failingTests <= |r.tests| - |group.tests|
  {
    var cs := Candidates(suites, store, group.simplePath);
    PushAllParts(group.(passingTests := 0, failingTests := 0), cs, findPrior, build);
    CountsBounded(cs, group.name, findPrior);
  }

  /** `addTests` resets the counters but does not clear the tests.  A second
      call appends one test per matching result again, after the first
      call's, and sets the counters from its own lookups alone.  The lookup
      of the second call is a parameter of its own, since the first call's
      pushes may change what `state.liveRoot.findTest` finds; only when it
      answers as in the first call are the same tests appended twice and
      the same counters set. */
  lemma AddedTwice(group: Group, suites: seq<Suite>, store: map<string, seq<Entry>>,
                   first: Lookup, second: Lookup, build: Builder)
    ensures var once := Added(group, Some(suites), store, first, build);
            var twice := Added(once, Some(suites), store, second, build);
            var cs := Candidates(suites, store, group.simplePath);
            && twice.tests == group.tests + Appended(cs, group.name, first, build)
                                          + Appended(cs, group.name, second, build)
            && |twice.tests| == |group.tests| + 2 * |cs|
            && twice.passingTests == PassCount(cs, group.name, second)
            && twice.failingTests == FailCount(cs, group.name, second)
            && (first == second ==>
                  twice.passingTests == once.passingTests && twice.failingTests == once.failingTests)
  {
    AddedSummary(group, suites, store, first, build);
    var once := Added(group, Some(suites), store, first, build);
    AddedSummary(once, suites, store, second, build);
  }
}

=== FILE: message.dfy ===
/** What the bridge looks for in a cleaned failure message (bridge.ts): the
    markers that classify it, and the window of diff lines that both the
    equality extractor and the snapshot reconstructor read.
 */
module Message {
  import opened JsString

  /** jest's equality assertion, as it appears in the message. */
  const EqualityMarker: string := "expect(received).toEqual(expected)"
  /** The diff header line jest and chai print above the received lines. */
  const ReceivedMarker: string := "+ Received"
  /** chai's diff header. */
  const ChaiHeader: string := "+ expected - actual"
  /** jest's snapshot assertion, as it appears in the message. */
  const SnapshotMarker: string := "expect(value).toMatchSnapshot()"
  /** jest's older snapshot failure text. */
  const SnapshotMismatch: string := "Snapshots do not match"
  /** The start of a stack-trace line (four spaces, then `at`). */
  const StackPrefix: string := "    at"

  /** The equality gate: one of the two markers is FIRST found at a position
      strictly greater than 0. */
  predicate IsEqualityFailure(message: string) {
    IndexOf(message, EqualityMarker) > 0 || IndexOf(message, ReceivedMarker) > 0
  }

  /** The snapshot gate, with the same "strictly after position 0" test. */
  predicate IsSnapshotFailure(message: string) {
    IndexOf(message, SnapshotMarker) > 0 || IndexOf(message, SnapshotMismatch) > 0
  }

  /** The header the equality extractor searches for. */
  predicate IsDiffHeader(line: string) {
    Contains(line, ReceivedMarker) || Contains(line, ChaiHeader)
  }

  /** The header the snapshot reconstructor searches for. */
  predicate IsReceivedHeader(line: string) {
    Contains(line, ReceivedMarker)
  }

  /** `line.match('^    at')`. */
  predicate IsStackLine(line: string) {
    StartsWith(line, StackPrefix)
  }

  /** `lines.slice(lines.findIndex(isHeader) + 2)` followed by
      `lines.slice(0, lines.findIndex(IsStackLine))`. */
  function Window(lines: seq<string>, isHeader: string -> bool): (w: seq<string>)
    ensures forall k :: 0 <= k < |w| ==> !IsStackLine(w[k])
    ensures forall l :: l in w ==> l in lines
  {
    var body := Slice(lines, FindIndex(lines, isHeader) + 2, |lines|);
    var cut := FindIndex(body, IsStackLine);
    var w := Slice(body, 0, cut);
    assert cut >= 0 ==> w == body[..cut];
    assert cut < 0 ==> (|body| == 0 ==> w == []) && (|body| > 0 ==> w == body[..|body| - 1]);
    w
  }

  /** The window begins two lines after the first header and ends just
      before the first stack-trace line that follows. */
  lemma WindowAfterHeader(isHeader: string -> bool, pre: seq<string>, header: string,
                          skipped: string, body: seq<string>, stack: string, post: seq<string>)
    requires forall k :: 0 <= k < |pre| ==> !isHeader(pre[k])
    requires isHeader(header)
    requires forall k :: 0 <= k < |body| ==> !IsStackLine(body[k])
    requires IsStackLine(stack)
    ensures Window(pre + [header, skipped] + body + [stack] + post, isHeader) == body
  {
    var lines := pre + [header, skipped] + body + [stack] + post;
    assert lines[|pre|] == header;
    assert FindIndex(lines, isHeader) == |pre| by {
      forall k | 0 <= k < |pre| ensures lines[k] == pre[k] { }
    }
    var rest := body + [stack] + post;
    assert Slice(lines, |pre| + 2, |lines|) == rest;
    assert rest[|body|] == stack;
    assert FindIndex(rest, IsStackLine) == |body| by {
      forall k | 0 <= k < |body| ensures rest[k] == body[k] { }
    }
    assert rest[..|body|] == body;
  }

  /** Without any header `findIndex` yields -1, so the window starts at
      line 1. */
  lemma WindowWithoutHeader(isHeader: string -> bool, first: string, body: seq<string>,
                            stack: string, post: seq<string>)
    requires !isHeader(first)
    requires forall k :: 0 <= k < |body| ==> !isHeader(body[k]) && !IsStackLine(body[k])
    requires !isHeader(stack) && IsStackLine(stack)
    requires forall k :: 0 <= k < |post| ==> !isHeader(post[k])
    ensures Window([first] + body + [stack] + post, isHeader) == body
  {
    var lines := [first] + body + [stack] + post;
    assert FindIndex(lines, isHeader) == -1 by {
      forall k | 0 <= k < |lines| ensures !isHeader(lines[k]) {
        if k == 0 {
        } else if k <= |body| {
          assert lines[k] == body[k - 1];
        } else if k == |body| + 1 {
          assert lines[k] == stack;
        } else {
          assert lines[k] == post[k - |body| - 2];
        }
      }
    }
    var rest := body + [stack] + post;
    assert Slice(lines, 1, |lines|) == rest;
    assert rest[|body|] == stack;
    assert FindIndex(rest, IsStackLine) == |body| by {
      forall k | 0 <= k < |body| ensures rest[k] == body[k] { }
    }
    assert rest[..|body|] == body;
  }

  /** Without any stack-trace line `findIndex` yields -1 and `slice(0, -1)`
      drops the last line of the message. */
  lemma WindowWithoutStackLine(isHeader: string -> bool, pre: seq<string>, header: string,
                               skipped: string, body: seq<string>, last: string)
    requires forall k :: 0 <= k < |pre| ==> !isHeader(pre[k])
    requires isHeader(header)
    requires forall k :: 0 <= k < |body| ==> !IsStackLine(body[k])
    requires !IsStackLine(last)
    ensures Window(pre + [header, skipped] + body + [last], isHeader) == body
  {
    var lines := pre + [header, skipped] + body + [last];
    assert lines[|pre|] == header;
    assert FindIndex(lines, isHeader) == |pre| by {
      forall k | 0 <= k < |pre| ensures lines[k] == pre[k] { }
    }
    var rest := body + [last];
    assert Slice(lines, |pre| + 2, |lines|) == rest;
    assert FindIndex(rest, IsStackLine) == -1 by {
      forall k | 0 <= k < |rest| ensures !IsStackLine(rest[k]) {
        if k < |body| {
          assert rest[k] == body[k];
        }
      }
    }
    assert rest[..|rest| - 1] == body;
  }

  /** The gates look only at the FIRST occurrence of a marker: a message that
      opens with `+ Received` is not an equality failure even when the
      marker occurs again later. */
  lemma GateIgnoresLeadingMarker(rest: string)
    requires !Contains(ReceivedMarker + rest, EqualityMarker)
    ensures !IsEqualityFailure(ReceivedMarker + rest)
  {
    StartsWithIndexOf(ReceivedMarker + rest, ReceivedMarker);
  }
}

=== FILE: ordering.dfy ===
/** The name sort at the end of `describe` (bridge.ts): the parent's groups
    and the group's tests are sorted with the comparator
    `(a, b) => (a.name < b.name ? -1 : 1)`.  The model sorts by insertion,
    so equal names keep their order; the result is a sorted permutation.
 */
module Ordering {
  import opened JsString

  /** No element's key is smaller than the key of an element before it. */
  predicate SortedBy<T>(xs: seq<T>, key: T -> string) {
    forall i, j :: 0 <= i < j < |xs| ==> !Less(key(xs[j]), key(xs[i]))
  }

  /** Inserts `x` in front of the first element whose key is greater. */
  function Insert<T>(x: T, xs: seq<T>, key: T -> string): (r: seq<T>)
    ensures |r| == |xs| + 1
  {
    if |xs| == 0 then [x]
    else if Less(key(x), key(xs[0])) then [x] + xs
    else [xs[0]] + Insert(x, xs[1..], key)
  }

  /** `array.sort` with the name comparator: a permutation of its input
      in which no key is below an earlier one. */
  function SortBy<T>(xs: seq<T>, key: T -> string): (r: seq<T>)
    ensures |r| == |xs|
    ensures SortedBy(r, key)
    ensures multiset(r) == multiset(xs)
  {
    if |xs| == 0 then []
    else
      var rest := SortBy(xs[1..], key);
      InsertSorted(xs[0], rest, key);
      InsertPermutation(xs[0], rest, key);
      assert xs == [xs[0]] + xs[1..];
      Insert(xs[0], rest, key)
  }

  // ---------------------------------------------------------------------------
  // Properties

  lemma {:induction false} InsertPermutation<T>(x: T, xs: seq<T>, key: T -> string)
    ensures multiset(Insert(x, xs, key)) == multiset(xs) + multiset{x}
  {
    if |xs| > 0 && !Less(key(x), key(xs[0])) {
      InsertPermutation(x, xs[1..], key);
      assert xs == [xs[0]] + xs[1..];
    }
  }

  /** If `a` is below `b` and `c` is not below `b`, then `c` is not below `a`. */
  lemma NotBelowSmaller(a: string, b: string, c: string)
    requires Less(a, b) && !Less(c, b)
    ensures !Less(c, a)
  {
    if Less(c, a) {
      LessTransitive(c, a, b);
    }
  }

  lemma {:induction false} InsertSorted<T>(x: T, xs: seq<T>, key: T -> string)
    requires SortedBy(xs, key)
    ensures SortedBy(Insert(x, xs, key), key)
  {
    if |xs| == 0 {
    } else if Less(key(x), key(xs[0])) {
      var r := [x] + xs;
      forall i, j | 0 <= i < j < |r| ensures !Less(key(r[j]), key(r[i])) {
        if i == 0 {
          assert r[j] == xs[j - 1];
          if j == 1 {
            LessIrreflexive(key(xs[0]));
          } else {
            assert !Less(key(xs[j - 1]), key(xs[0]));
          }
          NotBelowSmaller(key(x), key(xs[0]), key(xs[j - 1]));
        } else {
          assert r[i] == xs[i - 1] && r[j] == xs[j - 1];
        }
      }
    } else {
      var rest := Insert(x, xs[1..], key);
      assert SortedBy(xs[1..], key) by {
        forall i, j | 0 <= i < j < |xs| - 1 ensures !Less(key(xs[1..][j]), key(xs[1..][i])) {
          assert xs[1..][i] == xs[i + 1] && xs[1..][j] == xs[j + 1];
        }
      }
      InsertSorted(x, xs[1..], key);
      InsertPermutation(x, xs[1..], key);
      var r := [xs[0]] + rest;
      forall i, j | 0 <= i < j < |r| ensures !Less(key(r[j]), key(r[i])) {
        if i == 0 {
          var y := rest[j - 1];
          assert y in multiset(rest);
          if y == x {
          } else {
            assert y in multiset(xs[1..]);
            var m :| 0 <= m < |xs[1..]| && xs[1..][m] == y;
            assert xs[m + 1] == y;
          }
        } else {
          assert r[i] == rest[i - 1] && r[j] == rest[j - 1];
        }
      }
    }
  }

}

=== FILE: reconstruct.dfy ===
/** The snapshot-diff reconstructor of `addTests` (bridge.ts): the message
    shows only a truncated diff against the stored snapshot, and the loop
    replays it over the snapshot's lines to rebuild the received text.
 */
module Reconstruct {
  import opened JsString
  import opened Message

  /** The loop's state: `index` into the original lines and the `current`
      lines emitted so far.  A header `@@ -0` sets `index` to -1, so it is an
      `int`. */
  datatype Cursor = Cursor(index: int, current: seq<string>)

  /** `originalLines[i]`; out of range it is `undefined`, which `join`
      renders as the empty string. */
  function OrigAt(orig: seq<string>, i: int): string {
    if 0 <= i < |orig| then orig[i] else ""
  }

  /** `line.match(/^@@ \-(\d+)/)` followed by `parseInt` of the digits. */
  function HunkStart(line: string): (r: Option<nat>)
    ensures r.Some? <==> StartsWith(line, "@@ -") && |line| > 4 && IsDigit(line[4])
  {
    if StartsWith(line, "@@ -") && DigitRun(line[4..]) > 0 then
      var digits := line[4..4 + DigitRun(line[4..])];
      assert forall k :: 0 <= k < |digits| ==> IsDigit(digits[k]) by {
        forall k | 0 <= k < |digits| ensures IsDigit(digits[k]) {
          assert digits[k] == line[4..][k];
        }
      }
      Some(ParseDigits(digits))
    else None
  }

  /** `line.match(/^\s*(\+|\-)/)`: the `+` or `-` that follows the leading
      white space, if any. */
  function DiffMarker(line: string): (r: Option<char>)
    ensures r.Some? ==> r.value == '+' || r.value == '-'
    ensures |line| > 0 && (line[0] == '+' || line[0] == '-') ==> r == Some(line[0])
    ensures |line| > 0 && !IsSpace(line[0]) && line[0] != '+' && line[0] != '-' ==> r.None?
    ensures |line| == 0 ==> r.None?
  {
    var k := SpaceRun(line);
    if k < |line| && (line[k] == '+' || line[k] == '-') then Some(line[k]) else None
  }

  /** `^\s*` skips leading white space: a line that starts with white space
      has the marker of the line without that character.  With the clauses
      of `DiffMarker` this fixes the marker of every line. */
  lemma DiffMarkerSkipsSpace(line: string)
    requires |line| > 0 && IsSpace(line[0])
    ensures DiffMarker(line) == DiffMarker(line[1..])
  {
    assert SpaceRun(line) == 1 + SpaceRun(line[1..]);
  }

  /** A context line as jest prints it, two spaces and the original line,
      carries no marker when the original line does not start with white
      space, `+` or `-`. */
  lemma ContextLineUnmarked(text: string)
    requires |text| == 0 || (!IsSpace(text[0]) && text[0] != '+' && text[0] != '-')
    ensures DiffMarker("  " + text).None?
  {
    var line := "  " + text;
    assert IsSpace(line[0]) && line[1..][0] == ' ' && IsSpace(line[1..][0]);
    DiffMarkerSkipsSpace(line);
    DiffMarkerSkipsSpace(line[1..]);
    assert line[1..][1..] == text;
  }

  /** The header loop `for (let i = index; i < end - 1; i++)
      current.push(originalLines[i])`. */
  function CopyRange(orig: seq<string>, from: int, to: int): (r: seq<string>)
    decreases to - from
    ensures |r| == if from < to then to - from else 0
    ensures forall k :: 0 <= k < |r| ==> r[k] == OrigAt(orig, from + k)
  {
    if from >= to then [] else [OrigAt(orig, from)] + CopyRange(orig, from + 1, to)
  }

  /** One iteration of the loop body for a line that is not a stack-trace
      line.  Emitted lines are never taken back, and a line that is not a
      header moves the cursor one line on, emits one line, or both. */
  function Step(orig: seq<string>, c: Cursor, line: string): Cursor
  {
    match HunkStart(line)
    case Some(end) => Cursor(end - 1, c.current + CopyRange(orig, c.index, end - 1))
    case None =>
      match DiffMarker(line)
      case Some(d) =>
        if d != '+' then Cursor(c.index + 1, c.current)
        else Cursor(c.index, c.current + [ReplaceFirst(line, [d], "")])
      case None => Cursor(c.index + 1, c.current + [OrigAt(orig, c.index)])
  }

  /** The whole loop, including its `break` at a stack-trace line. */
  function Replay(orig: seq<string>, c: Cursor, lines: seq<string>): Cursor
    decreases |lines|
  {
    if |lines| == 0 || IsStackLine(lines[0]) then c
    else Replay(orig, Step(orig, c, lines[0]), lines[1..])
  }

  /** Outside a hunk header, one line either advances the cursor by one
      (emitting at most one line) or emits one line and stays put; no line
      ever takes back what was emitted before it. */
  lemma StepMovesOrEmits(orig: seq<string>, c: Cursor, line: string)
    ensures c.current <= Step(orig, c, line).current
    ensures HunkStart(line).None? ==>
              var r := Step(orig, c, line);
              || (r.index == c.index + 1 && |r.current| <= |c.current| + 1)
              || (r.index == c.index && |r.current| == |c.current| + 1)
  {
  }

  /** The replay only ever appends to the lines emitted before it. */
  lemma {:induction false} ReplayAppends(orig: seq<string>, c: Cursor, lines: seq<string>)
    ensures c.current <= Replay(orig, c, lines).current
    decreases |lines|
  {
    if |lines| > 0 && !IsStackLine(lines[0]) {
      var next := Step(orig, c, lines[0]);
      StepMovesOrEmits(orig, c, lines[0]);
      ReplayAppends(orig, next, lines[1..]);
    }
  }

  /** The reconstructed received text: the window below `+ Received`
      replayed from cursor 0 over the trimmed snapshot's lines, joined with
      newlines.  Without diff lines below the header it is empty. */
  function ReconstructActual(original: string, message: string): (r: string)
    ensures Window(Split(message, '\n'), IsReceivedHeader) == [] ==> r == ""
  {
    var window := Window(Split(message, '\n'), IsReceivedHeader);
    Join(Replay(Split(original, '\n'), Cursor(0, []), window).current, "\n")
  }

  /** The evident intent of `line.replace(d, '')` for jest's print format:
      the marker goes together with the one space jest prints after it, the
      way the equality extractor's `substring(2)` reads a marked line.  Other
      lines are left alone. */
  function Tighten(line: string): (r: string)
    ensures DiffMarker(line).None? ==> r == line
    ensures |r| <= |line|
  {
    var k := SpaceRun(line);
    if DiffMarker(line).Some? && k + 1 < |line| && line[k + 1] == ' ' then line[..k + 1] + line[k + 2..]
    else line
  }

  function TightenAll(lines: seq<string>): (r: seq<string>)
    ensures |r| == |lines|
  {
    if |lines| == 0 then [] else [Tighten(lines[0])] + TightenAll(lines[1..])
  }

  /** The reconstruction as intended: the loop replays the window with each
      marker removed together with its space. */
  function ReconstructIntended(original: string, message: string): string {
    var window := Window(Split(message, '\n'), IsReceivedHeader);
    Join(Replay(Split(original, '\n'), Cursor(0, []), TightenAll(window)).current, "\n")
  }

  // ---------------------------------------------------------------------------
  // Line kinds

  predicate IsHeader(line: string) { HunkStart(line).Some? }
  predicate IsAdded(line: string) { !IsHeader(line) && DiffMarker(line) == Some('+') }
  predicate IsRemoved(line: string) { !IsHeader(line) && DiffMarker(line) == Some('-') }
  predicate IsContext(line: string) {
    !IsHeader(line) && DiffMarker(line).None? && !IsStackLine(line)
  }

  /** `line.replace(d, '')` removes exactly the marker found after the
      leading white space. */
  lemma MarkerRemoval(line: string, d: char)
    requires DiffMarker(line) == Some(d)
    ensures ReplaceFirst(line, [d], "") == line[..SpaceRun(line)] + line[SpaceRun(line) + 1..]
  {
    var k := SpaceRun(line);
    assert OccursAt(line, [d], k);
    assert d == '+' || d == '-';
    forall j | 0 <= j < k ensures !OccursAt(line, [d], j) {
      assert IsSpace(line[j]) && line[j..j + 1][0] == line[j];
    }
    assert IndexOf(line, [d]) == k;
  }

  /** An added line `+text` contributes exactly `text`. */
  lemma AddedLineText(text: string)
    ensures DiffMarker("+" + text) == Some('+')
    ensures ReplaceFirst("+" + text, ['+'], "") == text
  {
    var line := "+" + text;
    RunLengthIs(line, IsSpace, 0);
    MarkerRemoval(line, '+');
    assert line[1..] == text;
  }

  /** A hunk header printed by jest, `@@ -N,...`, is read back as N. */
  lemma HeaderValue(n: nat, tail: string)
    requires |tail| == 0 || !IsDigit(tail[0])
    ensures HunkStart("@@ -" + Decimal(n) + tail) == Some(n)
  {
    var line := "@@ -" + Decimal(n) + tail;
    var ds := Decimal(n);
    assert line[4..] == ds + tail;
    RunLengthIs(line[4..], IsDigit, |ds|);
    assert line[4..4 + |ds|] == ds;
    ParseDecimal(n);
  }

  // ---------------------------------------------------------------------------
  // Properties of the replay

  /** The `break`: nothing after a stack-trace line is replayed. */
  lemma {:induction false} ReplayStopsAtStackLine(orig: seq<string>, c: Cursor, lines: seq<string>,
                                                  stack: string, rest: seq<string>)
    requires IsStackLine(stack)
    ensures Replay(orig, c, lines + [stack] + rest) == Replay(orig, c, lines)
    decreases |lines|
  {
    var all := lines + [stack] + rest;
    if |lines| == 0 {
      assert all[0] == stack;
    } else {
      assert all[0] == lines[0];
      if !IsStackLine(lines[0]) {
        assert all[1..] == lines[1..] + [stack] + rest;
        ReplayStopsAtStackLine(orig, Step(orig, c, lines[0]), lines[1..], stack, rest);
      }
    }
  }

  /** Context-only lines take the original lines at the cursor, one each,
      and move the cursor past them. */
  lemma {:induction false} ReplayContext(orig: seq<string>, c: Cursor, lines: seq<string>)
    requires forall k :: 0 <= k < |lines| ==> IsContext(lines[k])
    ensures Replay(orig, c, lines)
         == Cursor(c.index + |lines|, c.current + CopyRange(orig, c.index, c.index + |lines|))
    decreases |lines|
  {
    if |lines| > 0 {
      var next := Cursor(c.index + 1, c.current + [OrigAt(orig, c.index)]);
      assert Step(orig, c, lines[0]) == next;
      ReplayContext(orig, next, lines[1..]);
      assert CopyRange(orig, c.index, c.index + |lines|)
          == [OrigAt(orig, c.index)] + CopyRange(orig, c.index + 1, c.index + |lines|);
    }
  }

  /** A window without headers, `+` and `-` lines reconstructs exactly the
      first k original lines, k being the number of window lines (missing
      lines read as empty). */
  lemma ContextWindowIsPrefix(orig: seq<string>, lines: seq<string>)
    requires forall k :: 0 <= k < |lines| ==> IsContext(lines[k])
    ensures |Replay(orig, Cursor(0, []), lines).current| == |lines|
    ensures |lines| <= |orig| ==> Replay(orig, Cursor(0, []), lines).current == orig[..|lines|]
  {
    ReplayContext(orig, Cursor(0, []), lines);
  }

  function CountAdded(lines: seq<string>): nat {
    if |lines| == 0 then 0 else (if IsAdded(lines[0]) then 1 else 0) + CountAdded(lines[1..])
  }

  function CountRemoved(lines: seq<string>): nat {
    if |lines| == 0 then 0 else (if IsRemoved(lines[0]) then 1 else 0) + CountRemoved(lines[1..])
  }

  /** Without headers, every line either emits one line or moves the cursor
      by one, or both (context): the cursor ends `|lines| - added` further
      on, and `|lines| - removed` lines are emitted. */
  lemma {:induction false} ReplayCounts(orig: seq<string>, c: Cursor, lines: seq<string>)
    requires forall k :: 0 <= k < |lines| ==> !IsHeader(lines[k]) && !IsStackLine(lines[k])
    ensures Replay(orig, c, lines).index == c.index + |lines| - CountAdded(lines)
    ensures |Replay(orig, c, lines).current| == |c.current| + |lines| - CountRemoved(lines)
    decreases |lines|
  {
    if |lines| > 0 {
      ReplayCounts(orig, Step(orig, c, lines[0]), lines[1..]);
    }
  }

  /** A header at or before the cursor copies nothing and moves the cursor
      back to the header's line. */
  lemma HeaderMovesBack(orig: seq<string>, c: Cursor, n: nat, tail: string, rest: seq<string>)
    requires n - 1 <= c.index
    requires |tail| == 0 || !IsDigit(tail[0])
    ensures Replay(orig, c, ["@@ -" + Decimal(n) + tail] + rest)
         == Replay(orig, Cursor(n - 1, c.current), rest)
  {
    var h := "@@ -" + Decimal(n) + tail;
    HeaderValue(n, tail);
    assert !IsStackLine(h) by {
      assert h[0] == '@';
    }
    assert ([h] + rest)[1..] == rest;
    assert CopyRange(orig, c.index, n - 1) == [];
    assert c.current + [] == c.current;
  }

  /** A header ahead of the cursor copies the skipped original lines. */
  lemma HeaderCopiesGap(orig: seq<string>, c: Cursor, n: nat, tail: string, rest: seq<string>)
    requires |tail| == 0 || !IsDigit(tail[0])
    ensures Replay(orig, c, ["@@ -" + Decimal(n) + tail] + rest)
         == Replay(orig, Cursor(n - 1, c.current + CopyRange(orig, c.index, n - 1)), rest)
  {
    var h := "@@ -" + Decimal(n) + tail;
    HeaderValue(n, tail);
    assert !IsStackLine(h) by {
      assert h[0] == '@';
    }
    assert ([h] + rest)[1..] == rest;
  }
}

=== FILE: snapshots.dfy ===
/** The snapshots `addTests` (bridge.ts) attaches to a test: one per key of
    the suite's snapshot object that contains the test's full name, with a
    display name derived from the key and both sides normalised for
    display.
 */
module Snapshots {
  import opened JsString
  import opened Markup
  import opened Keys
  import opened Failure

  /** A snapshot as shown: `current` is `null` (here `None`) when the test's
      error has no actual side. */
  datatype Snapshot = Snapshot(name: string, originalName: string, expected: string,
                               current: Option<string>, matching: bool)

  // ---------------------------------------------------------------------------
  // Naming

  /** `new RegExp(fullName + '\\s+\\d+')` matches at `i`: the name, at least
      one white-space character, then a digit.  A digit is not white space,
      so the white space taken is the whole run after the name. */
  predicate NumberedAt(key: string, fullName: string, i: nat) {
    OccursAt(key, fullName, i)
    && var after := key[i + |fullName|..];
       0 < SpaceRun(after) < |after| && IsDigit(after[SpaceRun(after)])
  }

  /** Some position at or after `i` is a match. */
  predicate NumberedFrom(key: string, fullName: string, i: nat)
    decreases |key| - i
  {
    i <= |key| && (NumberedAt(key, fullName, i) || NumberedFrom(key, fullName, i + 1))
  }

  /** `m.match(new RegExp(fullName + '\\s+\\d+'))`, with the full name read
      literally: the key is numbered exactly when the pattern matches at
      some position, and then it contains the full name. */
  predicate IsNumberedKey(key: string, fullName: string)
    ensures IsNumberedKey(key, fullName) <==> exists i: nat :: i <= |key| && NumberedAt(key, fullName, i)
    ensures IsNumberedKey(key, fullName) ==> Contains(key, fullName)
  {
    NumberedFromMatches(key, fullName, 0);
    NumberedFrom(key, fullName, 0)
  }

  /** `NumberedFrom` searches every position from `i` on. */
  lemma {:induction false} NumberedFromMatches(key: string, fullName: string, i: nat)
    ensures NumberedFrom(key, fullName, i) <==> exists j: nat :: i <= j <= |key| && NumberedAt(key, fullName, j)
    ensures NumberedFrom(key, fullName, i) ==> Contains(key, fullName)
    decreases |key| - i
  {
    if i <= |key| {
      NumberedFromMatches(key, fullName, i + 1);
      if NumberedAt(key, fullName, i) {
        ContainsAt(key, fullName, i);
      }
    }
  }

  /** `.replace(/\b1$/, '')`: a final `1` that does not continue a word is
      dropped. */
  function StripTrailingOne(s: string): (r: string)
    ensures r == s || r + "1" == s
  {
    if |s| > 0 && s[|s| - 1] == '1' && (|s| == 1 || !IsWordChar(s[|s| - 2])) then s[..|s| - 1]
    else s
  }

  /** `.replace(/^:\s+/, '')`: a leading colon followed by white space is
      dropped together with that white space. */
  function StripLabelColon(s: string): (r: string)
    ensures |r| <= |s| && r == s[|s| - |r|..]
    ensures |s| == 0 || s[0] != ':' ==> r == s
  {
    if |s| > 0 && s[0] == ':' && SpaceRun(s[1..]) > 0 then s[1 + SpaceRun(s[1..])..] else s
  }

  /** What the k-th numbered key is called in the end: `Snapshot k`, except
      that `\b1$` shortens the first one to `Snapshot `. */
  function NumberedName(k: nat): string {
    if k == 1 then "Snapshot " else "Snapshot " + Decimal(k)
  }

  // ---------------------------------------------------------------------------
  // Normalisation

  /** The expected side: the stored text trimmed, then normalised unless it
      is empty.  It is empty exactly when the stored text is blank. */
  function Expected(value: string): (r: string)
    ensures |r| == 0 <==> |Trim(value)| == 0
  {
    var e := Trim(value);
    if |e| > 0 then Normalize(e) else e
  }

  /** The current side: the error's actual text for a test with an error,
      the stored text otherwise; trimmed and normalised unless it is `null`
      or empty.  It is absent exactly when the test's error has no actual
      side. */
  function Current(value: string, error: Option<TestError>): (r: Option<string>)
    ensures r.None? <==> error.Some? && error.value.actual.None?
  {
    var raw := if error.Some? then error.value.actual else Some(value);
    if raw.Some? && |raw.value| > 0 then Some(Normalize(Trim(raw.value))) else raw
  }

  // ---------------------------------------------------------------------------
  // The snapshot list

  /** The display name of one key: its raw name with `\b1$` and `^:\s+`
      stripped. */
  function DisplayName(raw: string): string {
    StripLabelColon(StripTrailingOne(raw))
  }

  /** The naming part of the `map` before the two final replacements, for
      any test of "numbered" and any name for the other keys: a numbered key
      takes `Snapshot ${index++}`. */
  function RawNames(keys: seq<string>, numbered: string -> bool, other: string -> string,
                    counter: nat): (r: seq<string>)
    decreases |keys|
    ensures |r| == |keys|
  {
    if |keys| == 0 then []
    else if numbered(keys[0]) then
      ["Snapshot " + Decimal(counter)] + RawNames(keys[1..], numbered, other, counter + 1)
    else
      [other(keys[0])] + RawNames(keys[1..], numbered, other, counter)
  }

  /** Number of keys the test calls numbered. */
  function CountWith(keys: seq<string>, numbered: string -> bool): nat {
    if |keys| == 0 then 0
    else (if numbered(keys[0]) then 1 else 0) + CountWith(keys[1..], numbered)
  }

  /** The names of a test's snapshot keys, numbered keys counted from
      `counter`; any other key loses the first occurrence of the full name. */
  function Names(keys: seq<string>, fullName: string, counter: nat): (r: seq<string>)
    ensures |r| == |keys|
  {
    var raw := RawNames(keys, Numbered(fullName), Unnumbered(fullName),
                        counter);
    seq(|raw|, k requires 0 <= k < |raw| => DisplayName(raw[k]))
  }

  /** Every name, numbered or not, is the one its key calls for: a
      numbered key is named after its rank among the numbered keys, any
      other key after itself without the first occurrence of the full name. */
  lemma NamesEach(keys: seq<string>, fullName: string, counter: nat)
    ensures var r := Names(keys, fullName, counter);
            && (forall k {:trigger r[k]} :: 0 <= k < |keys| && IsNumberedKey(keys[k], fullName) ==>
                  r[k] == DisplayName("Snapshot " + Decimal(counter + CountNumbered(keys[..k], fullName))))
            && (forall k {:trigger r[k]} :: 0 <= k < |keys| && !IsNumberedKey(keys[k], fullName) ==>
                  r[k] == DisplayName(ReplaceFirst(keys[k], fullName, "")))
  {
    RawNamesEach(keys, fullName, counter);
  }

  /** Every raw name, numbered or not, is the one its key calls for. */
  lemma RawNamesEach(keys: seq<string>, fullName: string, counter: nat)
    ensures var raw := RawNames(keys, Numbered(fullName), Unnumbered(fullName),
                                counter);
            && (forall k :: 0 <= k < |keys| && IsNumberedKey(keys[k], fullName) ==>
                  raw[k] == "Snapshot " + Decimal(counter + CountNumbered(keys[..k], fullName)))
            && (forall k :: 0 <= k < |keys| && !IsNumberedKey(keys[k], fullName) ==>
                  raw[k] == ReplaceFirst(keys[k], fullName, ""))
  {
    var numbered := Numbered(fullName);
    var other := Unnumbered(fullName);
    forall k | 0 <= k < |keys| && IsNumberedKey(keys[k], fullName)
      ensures RawNames(keys, numbered, other, counter)[k]
           == "Snapshot " + Decimal(counter + CountNumbered(keys[..k], fullName))
    {
      RawNamesRank(keys, numbered, other, counter, k);
    }
    forall k | 0 <= k < |keys| && !IsNumberedKey(keys[k], fullName)
      ensures RawNames(keys, numbered, other, counter)[k] == ReplaceFirst(keys[k], fullName, "")
    {
      RawNamesOther(keys, numbered, other, counter, k);
    }
  }

  /** The test `IsNumberedKey` as a function of the key alone. */
  function Numbered(fullName: string): string -> bool {
    key => IsNumberedKey(key, fullName)
  }

  /** The name of a key that is not numbered, before the final replacements. */
  function Unnumbered(fullName: string): string -> string {
    key => ReplaceFirst(key, fullName, "")
  }

  /** Number of numbered keys. */
  function CountNumbered(keys: seq<string>, fullName: string): nat {
    CountWith(keys, Numbered(fullName))
  }

  function KeysOf(entries: seq<Entry>): (r: seq<string>)
    ensures |r| == |entries|
    ensures forall k :: 0 <= k < |r| ==> r[k] == entries[k].key
  {
    seq(|entries|, k requires 0 <= k < |entries| => entries[k].key)
  }

  /** The snapshots of a test: one per key containing its full name, in key
      order, named with the counter starting at 1.  Without a matching key
      the test keeps its empty list. */
  function SnapshotsFor(entries: seq<Entry>, fullName: string, error: Option<TestError>)
    : (r: seq<Snapshot>)
    ensures |r| == |MatchingKeys(entries, fullName)|
    ensures forall k :: 0 <= k < |r| ==> Contains(r[k].originalName, fullName) && r[k].matching
    ensures forall k :: 0 <= k < |r| ==> r[k].originalName == MatchingKeys(entries, fullName)[k].key
    ensures forall k :: 0 <= k < |r| ==> r[k].name == Names(KeysOf(MatchingKeys(entries, fullName)), fullName, 1)[k]
    ensures forall k :: 0 <= k < |r| ==>
              && r[k].expected == Expected(MatchingKeys(entries, fullName)[k].value)
              && r[k].current == Current(MatchingKeys(entries, fullName)[k].value, error)
  {
    var matching := MatchingKeys(entries, fullName);
    var names := Names(KeysOf(matching), fullName, 1);
    seq(|matching|, k requires 0 <= k < |matching| =>
      Snapshot(names[k], matching[k].key, Expected(matching[k].value),
               Current(matching[k].value, error), true))
  }

  // ---------------------------------------------------------------------------
  // Properties of the names

  /** The two final replacements leave `Snapshot k` alone except for k = 1:
      a final `1` preceded by a space loses it, one preceded by a digit
      (11, 21, ...) does not. */
  lemma NumberedNameValue(k: nat)
    requires k >= 1
    ensures DisplayName("Snapshot " + Decimal(k)) == NumberedName(k)
  {
    var d := Decimal(k);
    var s := "Snapshot " + d;
    if k == 1 {
      assert d == "1";
      assert s == "Snapshot 1";
      assert StripTrailingOne(s) == "Snapshot ";
    } else if k < 10 {
      assert d == [DigitChar(k)];
      assert s[|s| - 1] == DigitChar(k);
      assert StripTrailingOne(s) == s;
    } else {
      assert s[|s| - 2] == d[|d| - 2];
      assert IsDigit(d[|d| - 2]);
      assert StripTrailingOne(s) == s;
    }
    assert StripTrailingOne(s)[0] == 'S';
  }

  /** Each numbered key is named after its rank among the numbered keys,
      counting from `counter`; other keys do not advance the count. */
  lemma {:induction false} RawNamesRank(keys: seq<string>, numbered: string -> bool,
                                        other: string -> string, counter: nat, k: nat)
    requires k < |keys| && numbered(keys[k])
    ensures RawNames(keys, numbered, other, counter)[k]
         == "Snapshot " + Decimal(counter + CountWith(keys[..k], numbered))
    decreases k
  {
    if k == 0 {
      assert keys[..0] == [];
    } else {
      var next := if numbered(keys[0]) then counter + 1 else counter;
      var head := if numbered(keys[0]) then "Snapshot " + Decimal(counter) else other(keys[0]);
      var tail := RawNames(keys[1..], numbered, other, next);
      assert keys[1..][k - 1] == keys[k];
      RawNamesRank(keys[1..], numbered, other, next, k - 1);
      assert keys[..k][1..] == keys[1..][..k - 1];
      assert CountWith(keys[..k], numbered) == next - counter + CountWith(keys[1..][..k - 1], numbered);
      assert RawNames(keys, numbered, other, counter) == [head] + tail;
      assert ([head] + tail)[k] == tail[k - 1];
      assert counter + CountWith(keys[..k], numbered) == next + CountWith(keys[1..][..k - 1], numbered);
    }
  }

  /** A key that is not numbered keeps its own name. */
  lemma {:induction false} RawNamesOther(keys: seq<string>, numbered: string -> bool,
                                         other: string -> string, counter: nat, k: nat)
    requires k < |keys| && !numbered(keys[k])
    ensures RawNames(keys, numbered, other, counter)[k] == other(keys[k])
    decreases k
  {
    if k > 0 {
      var next := if numbered(keys[0]) then counter + 1 else counter;
      assert keys[1..][k - 1] == keys[k];
      RawNamesOther(keys[1..], numbered, other, next, k - 1);
    }
  }

  /** Each numbered key is named after its rank among the numbered keys,
      counting from `counter`; other keys do not advance the count. */
  lemma NamesRank(keys: seq<string>, fullName: string, counter: nat, k: nat)
    requires counter >= 1
    requires k < |keys| && IsNumberedKey(keys[k], fullName)
    ensures Names(keys, fullName, counter)[k] == NumberedName(counter + CountNumbered(keys[..k], fullName))
  {
    var numbered := Numbered(fullName);
    RawNamesRank(keys, numbered, Unnumbered(fullName), counter, k);
    NumberedNameValue(counter + CountWith(keys[..k], numbered));
  }

  /** A custom-label key `<fullName>: <caption>` is named `caption`,
      provided the caption does not start with white space and does not end
      in `1`. */
  lemma CustomLabel(fullName: string, caption: string, counter: nat)
    requires !IsNumberedKey(fullName + ": " + caption, fullName)
    requires |caption| == 0 || (!IsSpace(caption[0]) && caption[|caption| - 1] != '1')
    ensures Names([fullName + ": " + caption], fullName, counter) == [caption]
  {
    var key := fullName + ": " + caption;
    StartsWithIndexOf(key, fullName);
    assert key[|fullName|..] == ": " + caption;
    assert ReplaceFirst(key, fullName, "") == ": " + caption;
    LabelName(caption);
    var n := Names([key], fullName, counter);
    assert n == [n[0]];
  }

  /** `: caption` loses its colon and the space after it. */
  lemma LabelName(caption: string)
    requires |caption| == 0 || (!IsSpace(caption[0]) && caption[|caption| - 1] != '1')
    ensures DisplayName(": " + caption) == caption
  {
    var rest := ": " + caption;
    assert StripTrailingOne(rest) == rest;
    RunLengthIs(rest[1..], IsSpace, 1);
    assert rest[2..] == caption;
  }

  /** Two numbered keys of one test, `<fullName> 1` and `<fullName> 2`, are
      shown as `Snapshot ` and `Snapshot 2`. */
  lemma TwoNumberedKeys(fullName: string)
    ensures Names([fullName + " 1", fullName + " 2"], fullName, 1) == ["Snapshot ", "Snapshot 2"]
  {
    var keys := [fullName + " 1", fullName + " 2"];
    NumberedKeyAt(fullName, '1');
    NumberedKeyAt(fullName, '2');
    assert keys[0] == fullName + " " + ['1'];
    assert keys[1] == fullName + " " + ['2'];
    FirstTwoNumbered(keys, fullName);
    var n := Names(keys, fullName, 1);
    assert n == [n[0], n[1]];
  }

  /** The first two keys, both numbered, take `Snapshot ` and `Snapshot 2`. */
  lemma FirstTwoNumbered(keys: seq<string>, fullName: string)
    requires |keys| >= 2 && IsNumberedKey(keys[0], fullName) && IsNumberedKey(keys[1], fullName)
    ensures Names(keys, fullName, 1)[0] == "Snapshot "
    ensures Names(keys, fullName, 1)[1] == "Snapshot 2"
  {
    assert keys[..0] == [];
    assert keys[..1] == [keys[0]];
    CountNumberedOne(keys[0], fullName);
    NamesRank(keys, fullName, 1, 0);
    NamesRank(keys, fullName, 1, 1);
    DecimalTwo();
    assert NumberedName(2) == "Snapshot " + "2";
  }

  lemma CountNumberedOne(key: string, fullName: string)
    ensures CountNumbered([key], fullName) == if IsNumberedKey(key, fullName) then 1 else 0
  {
    var numbered := Numbered(fullName);
    assert [key][1..] == [];
    assert CountWith([], numbered) == 0;
    assert CountWith([key], numbered) == (if numbered(key) then 1 else 0) + CountWith([], numbered);
    assert numbered(key) == IsNumberedKey(key, fullName);
  }

  /** `<fullName> <digit>` is a numbered key. */
  lemma NumberedKeyAt(fullName: string, d: char)
    requires IsDigit(d)
    ensures IsNumberedKey(fullName + " " + [d], fullName)
  {
    var key := fullName + " " + [d];
    assert key[|fullName|..] == " " + [d];
    RunLengthIs(" " + [d], IsSpace, 1);
    assert NumberedAt(key, fullName, 0);
  }

  // ---------------------------------------------------------------------------
  // Properties of the two sides

  /** A test without an error shows the stored snapshot on both sides: its
      current text is its expected text. */
  lemma PassingSnapshotMatches(value: string)
    ensures Current(value, None) == Some(Expected(value))
  {
    var e := Trim(value);
    if |value| > 0 && |e| == 0 {
      assert ReplaceAll("", "className=", "class=") == "";
    }
  }

  /** A test whose error has no actual side shows no current text. */
  lemma ErrorWithoutActual(value: string, message: string, expected: Option<string>)
    ensures Current(value, Some(TestError(message, expected, None))).None?
  {
  }

  /** A snapshot without markup and without `className=` is only trimmed. */
  lemma PlainSnapshot(value: string)
    requires '<' !in value && !Contains(value, "className=")
    ensures Expected(value) == Trim(value)
  {
    var e := Trim(value);
    if |e| > 0 {
      TrimKeepsPlain(value);
      assert Normalize(e) == e;
    }
  }

  /** Trimming adds no character and no occurrence of `className=`. */
  lemma TrimKeepsPlain(value: string)
    requires '<' !in value && !Contains(value, "className=")
    ensures '<' !in Trim(value) && !Contains(Trim(value), "className=")
  {
    var e, k := Trim(value), SpaceRun(value);
    assert e == value[k..k + |e|];
    SliceContains(value, k, k + |e|, "className=");
  }

}
